=== FILE: README.md ===
# Wave function collapse engine of `WfcModel`, in Dafny

This project models the constraint engine of the `WfcModel` class in
`wfcWebApp/src/lib/waveFunctionAlgorithm.ts` and proves properties of it. The
engine is a small sequential arc-consistency solver on a rows×cols grid:

- **Domains and entropies.** Every field holds a boolean domain vector over the
  tiles of the rule set (`output`). It also has a separately stored integer
  "entropy" (`entropyMap`).
- **The loop.** `collapse` repeats four steps until the grid is collapsed or
  contradicted:
  1. choose an undecided field with the lowest entropy (`chooseNextField`);
  2. place a weighted random tile there (`placeTile`);
  3. propagate the neighbour rules through a LIFO worklist
     (`propagateChanges`, `pushNeighbours`);
  4. re-evaluate the two checks (`checkCollapsed`, `checkContradicted`).
- **Restarting.** `reCollapse` re-initialises the grid and calls `collapse`
  again.

The model is functional. The grid is an immutable `Grid`, and each operation
returns a new grid. Every `Math.random()` value is an explicit argument: a
`Unit`, which is an exact fraction `num/den` with `num < den`.

- `chooseNextField` takes one such value for its tie-break.
- `placeTile` takes one such value for its draw.
- The driver consumes one `Draw` (a pair of them) per iteration.

Weights are natural numbers. With weights and draws exact, the floating-point
walk of `placeTile` becomes an integer prefix-sum comparison.

The source is one class, `WfcModel`. The model splits it along its methods: each
module holds one stage of the algorithm (field choice, placement, propagation,
the driver) together with the invariants that stage keeps, and the shared grid
state and helpers sit below them. Modules, in dependency order:

| file | module | what it holds |
|---|---|---|
| `wrappers.dfy` | `Wrappers` | `Option` and `Result` |
| `random.dfy` | `Random` | the `Unit` draw and `Math.floor(u * n)` |
| `catalog.dfy` | `TileCatalog` | rule-set entries, directions, the rule-list lookup |
| `grid.dfy` | `GridState` | the grid, bounds, `initializeOutput`, domain and entropy invariants, termination measures |
| `js_sort.dfy` | `JsSort` | JavaScript's default `sort()` on numbers (string order) and the first value above one |
| `selection.dfy` | `CellSelector` | `chooseNextField` |
| `placement.dfy` | `Collapser` | `placeTile` |
| `propagation.dfy` | `Propagator` | `propagateChanges`, `pushNeighbours` and the restriction step |
| `engine.dfy` | `Engine` | the constructor, the checks, `collapse`, `reCollapse`, and the corrected driver |

Two quirks of the source are modelled as written, not fixed.

- **The sort compares strings.** `entropyMap.flat().sort()` sorts numbers as
  strings. So the "lowest entropy" is the least value above one in string
  order, which is guaranteed to be the numeric minimum only while every entropy
  is below 10.
  `JsSort.TenSortsBeforeNine` shows `10` being chosen over `9`.
- **The last tied field is never picked.** The tie-break index is
  `Math.floor(Math.random() * (n - 1))`. With two or more tied fields, the last
  one is never chosen. With exactly one, index 0 is always chosen.

Behaviours of the code worth knowing, each modelled as written:

- **All-zero weights.** When every in-domain weight is zero, the walk in
  `placeTile` runs off the end and returns. The field is left unchanged and
  nothing is thrown. Only an empty weight array, which happens when there are
  no tiles at all, throws, because `reduce` has no initial value.
- **The first iteration runs before any check.** On a 1×1 grid with one tile,
  `collapse` throws instead of finishing collapsed (see Findings).
- **No propagation before the first placement.** The first tile can therefore
  be one that no neighbour can accompany. With asymmetric rules, the run can
  then end contradicted even when a consistent completion exists.
- **Both flags can be true.** `checkCollapsed` and `checkContradicted` are
  independent. A grid with an empty field and no undecided field satisfies both
  (`Engine.BothChecksCanHold`).

## Model

Source paths are relative to the repository root.

| member | source | states |
|---|---|---|
| GridState.Initialize | wfcWebApp/src/lib/waveFunctionAlgorithm.ts:164-180 | the grid has `rows` rows of `cols` fields; every domain has one entry per tile and all are true; every entropy equals the tile count; entropy equals the domain's popcount |
| Engine.InitializeOutput | wfcWebApp/src/lib/waveFunctionAlgorithm.ts:164-180 | on the model: a fresh fully superposed grid of the stored dimensions; the rule set and both flags are left as they were |
| Engine.Construct | wfcWebApp/src/lib/waveFunctionAlgorithm.ts:50-61 | the constructed model keeps the given rule set and dimensions, has a valid, consistent initial grid, and both flags are false |
| GridState.IsFieldOnOutput | wfcWebApp/src/lib/waveFunctionAlgorithm.ts:352-359 | a field on the output indexes an existing row and an existing column of that row; on a rows×cols grid it is on the output iff both coordinates are in range |
| GridState.OnOutputIffWithinDims | wfcWebApp/src/lib/waveFunctionAlgorithm.ts:352-359 | on a rows×cols grid, a field is on the output iff 0 ≤ row < rows and 0 ≤ col < cols |
| JsSort.LowestAboveOne | wfcWebApp/src/lib/waveFunctionAlgorithm.ts:195 | a value exists iff some entry is above one; it is an entry, above one, and least in string order among the entries above one |
| JsSort.SortFilterFirst | wfcWebApp/src/lib/waveFunctionAlgorithm.ts:195 | for any string-order-sorted permutation of the entries, the filtered list is non-empty iff a lowest value exists, and its first element is that value |
| JsSort.SingleDigitsSortNumerically | wfcWebApp/src/lib/waveFunctionAlgorithm.ts:195 | when all entries are below 10, the chosen value is the numeric minimum of the entries above one |
| JsSort.TenSortsBeforeNine | wfcWebApp/src/lib/waveFunctionAlgorithm.ts:195 | with entropies 9 and 10, the value 10 is taken as the lowest |
| CellSelector.Flatten | wfcWebApp/src/lib/waveFunctionAlgorithm.ts:195 | `.flat()`: a value occurs in the flattened map iff some field holds it |
| JsSort.AboveOne | wfcWebApp/src/lib/waveFunctionAlgorithm.ts:195 | `.filter(v => v > 1)`: keeps exactly the entries above one |
| JsSort.JsString | wfcWebApp/src/lib/waveFunctionAlgorithm.ts:195 | the string a number is sorted by, for magnitudes below 10^21 (every entropy is at most the tile count): a minus sign exactly for negative values, then decimal digits |
| JsSort.JsStringInjective | wfcWebApp/src/lib/waveFunctionAlgorithm.ts:195 | distinct numbers render as distinct strings, so the sort's string comparison never ties two different entropies |
| JsSort.StrLeTotal | wfcWebApp/src/lib/waveFunctionAlgorithm.ts:195 | the default sort's string comparison orders every pair of strings |
| JsSort.StrLeTrans | wfcWebApp/src/lib/waveFunctionAlgorithm.ts:195 | the string comparison is transitive |
| JsSort.StrLeAntisym | wfcWebApp/src/lib/waveFunctionAlgorithm.ts:195 | strings each at most the other in the comparison are equal |
| CellSelector.Candidates | wfcWebApp/src/lib/waveFunctionAlgorithm.ts:195-204 | the tied-field list is non-empty iff some entropy is above one, holds exactly the in-bounds fields whose entropy equals the chosen lowest value, and lists them in row-major order without repeats |
| CellSelector.Fields | wfcWebApp/src/lib/waveFunctionAlgorithm.ts:196-204 | the fields from row i on with entropy v, each exactly once, in row-major loop order |
| CellSelector.ChooseNextField | wfcWebApp/src/lib/waveFunctionAlgorithm.ts:182-209 | a field is returned iff some entropy is above one; it is in bounds, its entropy is above one, equals the first value above one in default-sort order, and is least in string order among the undecided entropies |
| CellSelector.LastTiedFieldNeverChosen | wfcWebApp/src/lib/waveFunctionAlgorithm.ts:206-208 | with two or more tied fields, no draw ever selects the last one |
| CellSelector.OtherTiedFieldsReachable | wfcWebApp/src/lib/waveFunctionAlgorithm.ts:206-208 | every tied field except the last is selected by some draw |
| CellSelector.SoleCandidateChosen | wfcWebApp/src/lib/waveFunctionAlgorithm.ts:206-208 | with exactly one tied field, every draw selects it |
| Random.FloorScaled | wfcWebApp/src/lib/waveFunctionAlgorithm.ts:206 | `floor(u*n)` is the integer r with r ≤ u·n < r + 1; it is below n whenever n > 0, and 0 when n = 0 |
| Collapser.DomainWeights | wfcWebApp/src/lib/waveFunctionAlgorithm.ts:212-221 | a tile the domain has ruled out never carries weight, and the weights sum to more than zero iff some tile the domain allows has a positive weight |
| Collapser.Walk | wfcWebApp/src/lib/waveFunctionAlgorithm.ts:226-241 | the loop stops at the first non-zero weight whose cumulative scaled weight reaches the draw; it runs off the end only if the remaining total stays below the draw or is zero |
| Collapser.ChooseTile | wfcWebApp/src/lib/waveFunctionAlgorithm.ts:223-241 | a tile is chosen iff the in-domain weights sum to more than zero; the chosen tile is the first in catalog order with non-zero weight whose cumulative weight reaches u·S |
| Collapser.FirstReachingUnique | wfcWebApp/src/lib/waveFunctionAlgorithm.ts:226-241 | at most one tile satisfies the selection rule |
| Collapser.PlaceTile | wfcWebApp/src/lib/waveFunctionAlgorithm.ts:211-242 | throws iff there are no tiles. If the weights sum to zero, nothing changes. Otherwise the field's domain becomes exactly the first-reaching tile, with entropy 1. No other field changes. Domains only shrink, and entropy = popcount is kept |
| Collapser.PlaceTileWithPositiveWeights | wfcWebApp/src/lib/waveFunctionAlgorithm.ts:211-242 | with positive weights and a non-empty domain, placement succeeds, a tile is chosen, and the chosen tile was in the domain |
| TileCatalog.RuleList | wfcWebApp/src/lib/waveFunctionAlgorithm.ts:266-269 | `ruleset[e][k]` as `includes` sees it after `concat`: a value is listed iff the entry has a list k containing it, so a missing list lists nothing |
| Propagator.Range | wfcWebApp/src/lib/waveFunctionAlgorithm.ts:252-255 | the initial `possibleTiles` holds n values, exactly 0 to n-1 |
| Propagator.Union | wfcWebApp/src/lib/waveFunctionAlgorithm.ts:260-269 | a value is in the concatenated rule lists iff some tile the neighbour still allows lists it |
| Propagator.KeepListed | wfcWebApp/src/lib/waveFunctionAlgorithm.ts:271 | the filter keeps exactly the values present in both lists |
| Propagator.NarrowBy | wfcWebApp/src/lib/waveFunctionAlgorithm.ts:258-272 | one neighbour check: an off-grid neighbour changes nothing, otherwise exactly the values the neighbour supports remain |
| Propagator.PossibleTiles | wfcWebApp/src/lib/waveFunctionAlgorithm.ts:252-320 | a tile survives the four checks iff it is a tile index and every on-grid neighbour has a possible tile listing it in the opposite direction's rule |
| Propagator.AllowedByDirection | wfcWebApp/src/lib/waveFunctionAlgorithm.ts:258-320 | the opposite-direction rule is rule 2 for the field above, 3 for the right, 0 for below and 1 for the left |
| Propagator.Restrict | wfcWebApp/src/lib/waveFunctionAlgorithm.ts:322-329 | only bits are cleared; a bit survives iff it was set and is possible; entropy drops by exactly the number of cleared bits, keeping entropy = popcount; `changed` holds iff some bit was cleared |
| Propagator.RestrictFrom | wfcWebApp/src/lib/waveFunctionAlgorithm.ts:322-329 | the clearing loop from index i leaves earlier bits alone and clears exactly the set bits at or after i that are not possible |
| Propagator.Visit | wfcWebApp/src/lib/waveFunctionAlgorithm.ts:250-329 | the popped field's domain only shrinks, its entropy never rises, entropy = popcount is kept, and `changed` holds iff the domain differs |
| Propagator.VisitKeepsExactlyAllowed | wfcWebApp/src/lib/waveFunctionAlgorithm.ts:252-329 | after a visit, a tile remains iff it was possible before and every on-grid neighbour still supports it |
| Propagator.PushNeighbours | wfcWebApp/src/lib/waveFunctionAlgorithm.ts:337-350 | at most four fields are pushed on top of the stack, which is kept below them; each pushed field is on the grid, orthogonally adjacent and has entropy above one; every such neighbour is pushed |
| Propagator.Propagate | wfcWebApp/src/lib/waveFunctionAlgorithm.ts:249-334 | the worklist loop terminates (measure: total popcount, then stack length); domains only shrink, entropies never rise, entropy = popcount is kept; it reaches a fixpoint for undecided fields: if every undecided field not on the stack keeps only tiles all its on-grid neighbours support, then on exit every undecided field does |
| Propagator.SettledFieldUntouched | wfcWebApp/src/lib/waveFunctionAlgorithm.ts:249-350 | a field with entropy at most one that is not on the stack is never pushed, so it ends exactly as it was |
| Propagator.PropagateChanges | wfcWebApp/src/lib/waveFunctionAlgorithm.ts:244-335 | domains only shrink, entropies never rise, entropy = popcount is kept, and the settled field propagation starts from is left unchanged; if the only undecided fields that may hold an unsupported tile are its neighbours, afterwards no undecided field holds one |
| Engine.CheckCollapsed | wfcWebApp/src/lib/waveFunctionAlgorithm.ts:361-371 | true iff every entropy is at most one |
| Engine.CheckContradicted | wfcWebApp/src/lib/waveFunctionAlgorithm.ts:373-383 | true iff some entropy is below one |
| Engine.CollapsedFieldsHoldOneTile | wfcWebApp/src/lib/waveFunctionAlgorithm.ts:361-383 | on a consistent grid that is collapsed and not contradicted, every field holds exactly one tile |
| Engine.BothChecksCanHold | wfcWebApp/src/lib/waveFunctionAlgorithm.ts:361-383 | a grid with entropies 0 and 1 is both collapsed and contradicted |
| Engine.Step | wfcWebApp/src/lib/waveFunctionAlgorithm.ts:64-73 | one iteration throws iff no entropy is above one or there are no tiles; otherwise domains only shrink, no entropy rises, consistency is kept, and both flags equal the checks on the new grid |
| Engine.PlaceAndPropagate | wfcWebApp/src/lib/waveFunctionAlgorithm.ts:65-69 | placing at an undecided field and then propagating keeps the grid's shape, only shrinks domains, never raises an entropy and keeps entropy = popcount; with positive weights on a consistent grid the chosen field ends settled |
| Engine.StepSettlesAField | wfcWebApp/src/lib/waveFunctionAlgorithm.ts:64-73 | with positive weights, a consistent grid and an undecided field, an iteration never throws and lowers the number of undecided fields |
| Engine.Collapse | wfcWebApp/src/lib/waveFunctionAlgorithm.ts:63-78 | the loop finishes exactly when a flag is set; after at least one iteration the flags equal the checks; domains only shrink; no entropy rises; consistency is kept; a throw can only happen in the first iteration and leaves the model as it was |
| Engine.CollapseWithinUndecided | wfcWebApp/src/lib/waveFunctionAlgorithm.ts:63-78 | from a consistent grid with positive weights and an undecided field, the loop finishes without throwing within as many iterations as there are undecided fields, at most rows×cols |
| Engine.ReCollapse | wfcWebApp/src/lib/waveFunctionAlgorithm.ts:80-83 | the result grid is consistent; if a flag was already set, no iteration runs, the grid is the fresh initial grid, and the old flags are kept |
| Engine.ReCollapseKeepsContradiction | wfcWebApp/src/lib/waveFunctionAlgorithm.ts:80-83 | after a contradiction, `reCollapse` runs no iteration and still reports the contradiction |
| Engine.OneTileScenario | wfcWebApp/src/lib/waveFunctionAlgorithm.ts:63-73 | on a 1×1 grid with one tile, `collapse` throws in its first iteration, while the checked loop finishes collapsed and not contradicted |
| Engine.CollapseChecked | wfcWebApp/src/lib/waveFunctionAlgorithm.ts:63-73 | with the checks evaluated first, a finished run's flags describe its grid; with positive weights, a consistent grid and enough draws, it never throws and finishes within rows×cols iterations |
| Engine.ReCollapseReset | wfcWebApp/src/lib/waveFunctionAlgorithm.ts:80-83 | a restart that recomputes the flags: the grid stays consistent, finished flags describe the grid, and with positive weights and rows×cols draws it always finishes |

## Left out

- PNG decoding, compositing and encoding (`MyDecodedPng`, `getResultAsEncodedPNG`). These are calls into `fast-png` and `iobuffer` plus pixel shuffling. They are not part of the constraint engine.
- File I/O (`saveResultAsFile`, `getImgAsIOBuffer`). These are Node streams and `fs` calls.
- `console.log` in the constructor and `console.error` after a contradiction. They only produce output.
- `Math.random()`. Each call is an argument of type `Unit` (an exact fraction in [0, 1)). The driver takes a finite sequence of draws and reports `OutOfDraws` when it runs out.
- Collapser.PlaceTile: requires an on-grid field with one domain entry per tile. Its only caller passes the result of `chooseNextField`, and the `undefined` case is `Engine.Step`'s `NoField`.
- Collapser.PlaceTile: weights are natural numbers and draws are exact fractions. Floating-point rounding in the running subtraction is not modelled, nor are negative or fractional weights.
- `ts-data.stack` is a `seq` whose last element is the top of the stack.
- Global soundness, meaning that adjacent collapsed fields are permitted by each other's rules, is not stated. The code never checks that the rule lists are symmetric, and it places the first tile without any prior propagation.
- Engine.Collapse: the loop can run forever when every in-domain weight at the chosen field is zero. The model bounds it by the number of draws supplied and reports `OutOfDraws` instead of diverging.
- JsSort.JsString: renders integers in plain decimal only. JavaScript switches to exponent notation at magnitude 10^21, which no entropy reaches, because an entropy never exceeds the tile count.
- Propagator.Propagate: the fixpoint it reaches covers undecided fields only. A settled field is never pushed again, so the loop does not re-check it, and the model states nothing about it.
- Engine.Step: the dynamic type errors of JavaScript are the two `Crash` values. `placeTile(undefined)` becomes `NoField`, and `reduce` on an empty array becomes `Placement(EmptyReduce)`. Any other malformed input, such as a rule list containing non-numbers, is excluded by the types.

## Findings

| source | as written | input that shows it | evidently intended | confidence | as-written member | corrected member |
|---|---|---|---|---|---|---|
| wfcWebApp/src/lib/waveFunctionAlgorithm.ts:63-73 | the loop body runs before either check is ever evaluated, so a grid with no entropy above one reaches `chooseNextField`, which returns `undefined`, and `placeTile` throws | a 1×1 grid with one tile of weight 1 (any draws) | evaluate the checks before the first iteration, so an already settled grid finishes as collapsed (or contradicted) | not executed | Engine.OneTileScenario | Engine.CollapseChecked |
| wfcWebApp/src/lib/waveFunctionAlgorithm.ts:80-83 | `reCollapse` resets the grid but not the flags, so after any finished run the loop does not execute and the model reports the old outcome over a fresh, unsolved grid | any model whose previous run ended with `isContradicted` (or `isCollapsed`) set | recompute both flags from the fresh grid before looping, so that a retry actually runs | not executed | Engine.ReCollapse | Engine.ReCollapseReset |

=== FILE: catalog.dfy ===
/**
 * The rule set a `WfcModel` is built from. The constructor splits every entry
 * into `lookUp` (the image path), `weightings` and `ruleset`; the model keeps the
 * three together in one `Tile`, and a catalog is the sequence of entries, so the
 * tile count `lookUp.length` is `|tiles|` and tile indices are positions in it.
 */
module TileCatalog {

  /**
   * One rule-set entry. `rules[k]` lists the tiles that may sit next to this one
   * in direction k: 0 up, 1 right, 2 down, 3 left.
   */
  datatype Tile = Tile(path: string, weight: nat, rules: seq<seq<int>>)

  /** The four directions, in the order the propagation visits them. */
  datatype Dir = Up | Right | Down | Left

  /** Where a direction's list sits inside `Tile.rules`. */
  function RuleIndex(d: Dir): nat
  {
    match d
    case Up => 0
    case Right => 1
    case Down => 2
    case Left => 3
  }

  function Opposite(d: Dir): Dir
  {
    match d
    case Up => Down
    case Right => Left
    case Down => Up
    case Left => Right
  }

  /**
   * `ruleset[e][k]`. An entry with fewer than k+1 lists yields `undefined`;
   * `concat` appends that as a single non-number which `includes` never matches,
   * so a missing list behaves exactly like an empty one.
   */
  function RuleList(t: Tile, k: nat): (r: seq<int>)
    ensures forall v :: v in r <==> k < |t.rules| && v in t.rules[k]
  {
    if k < |t.rules| then t.rules[k] else []
  }

  /** Tile e of the catalog lists v in its rule list k. */
  predicate Permits(tiles: seq<Tile>, e: int, k: nat, v: int)
  {
    0 <= e < |tiles| && v in RuleList(tiles[e], k)
  }

  /** Every tile carries a strictly positive weight. */
  predicate PositiveWeights(tiles: seq<Tile>)
  {
    forall e :: 0 <= e < |tiles| ==> tiles[e].weight > 0
  }
}

=== FILE: engine.dfy ===
/**
 * The `WfcModel` object without its image and file code: the constructor,
 * `initializeOutput` on the model, the two termination checks, and the
 * `collapse` / `reCollapse` driver. The loop's randomness is a sequence of
 * draws, one per iteration; when it runs out the model reports where the loop
 * stood instead of inventing further draws.
 */
module Engine {
  import opened Wrappers
  import opened Random
  import opened TileCatalog
  import opened GridState
  import opened CellSelector
  import opened Collapser
  import opened Propagator

  /** The two `Math.random()` values one iteration consumes: the tie-break, then the weighted draw. */
  datatype Draw = Draw(tie: Unit, pick: Unit)

  /** The fields of a `WfcModel` that the algorithm reads and writes (`lookUp` is `|tiles|`). */
  datatype WfcModel = WfcModel(
    tiles: seq<Tile>, rows: nat, cols: nat, grid: Grid, isCollapsed: bool, isContradicted: bool)

  /** The grid has the stored dimensions and one domain entry per tile. */
  predicate Valid(m: WfcModel)
  {
    Shaped(m.grid, |m.tiles|) && Rectangular(m.grid.output, m.rows, m.cols)
  }

  /** `initializeOutput` on the model: a fresh grid; the two flags are not touched. */
  function InitializeOutput(m: WfcModel): (r: WfcModel)
    ensures Valid(r) && Consistent(r.grid)
    ensures r.tiles == m.tiles && r.rows == m.rows && r.cols == m.cols
    ensures r.isCollapsed == m.isCollapsed && r.isContradicted == m.isContradicted
    ensures forall i, j, k :: 0 <= i < m.rows && 0 <= j < m.cols && 0 <= k < |m.tiles| ==> r.grid.output[i][j][k]
    ensures forall i, j :: 0 <= i < m.rows && 0 <= j < m.cols ==> r.grid.entropy[i][j] == |m.tiles|
  {
    m.(grid := Initialize(m.rows, m.cols, |m.tiles|))
  }

  /** The constructor: store the rule set and dimensions, initialise, both flags false. */
  function Construct(tiles: seq<Tile>, rows: nat, cols: nat): (m: WfcModel)
    ensures Valid(m) && Consistent(m.grid) && !m.isCollapsed && !m.isContradicted
    ensures m.tiles == tiles && m.rows == rows && m.cols == cols
  {
    InitializeOutput(WfcModel(tiles, rows, cols, Grid([], []), false, false))
  }

  function RowSettled(row: seq<int>): (r: bool)
    ensures r <==> forall j :: 0 <= j < |row| ==> row[j] <= 1
  {
    if |row| == 0 then true
    else if row[0] > 1 then false
    else
      var rest := RowSettled(row[1..]);
      assert forall j :: 1 <= j < |row| ==> row[j] == row[1..][j - 1];
      rest
  }

  /** `checkCollapsed`: scans row by row and answers false at the first entropy above one. */
  function CheckCollapsed(entropy: seq<seq<int>>): (r: bool)
    ensures r <==> forall i, j :: 0 <= i < |entropy| && 0 <= j < |entropy[i]| ==> entropy[i][j] <= 1
  {
    if |entropy| == 0 then true
    else
      var rest := CheckCollapsed(entropy[1..]);
      assert forall i :: 1 <= i < |entropy| ==> entropy[i] == entropy[1..][i - 1];
      RowSettled(entropy[0]) && rest
  }

  function RowHasEmpty(row: seq<int>): (r: bool)
    ensures r <==> exists j :: 0 <= j < |row| && row[j] < 1
  {
    if |row| == 0 then false
    else if row[0] < 1 then true
    else
      var rest := RowHasEmpty(row[1..]);
      assert forall j :: 1 <= j < |row| ==> row[j] == row[1..][j - 1];
      rest
  }

  /** `checkContradicted`: scans row by row and answers true at the first entropy below one. */
  function CheckContradicted(entropy: seq<seq<int>>): (r: bool)
    ensures r <==> exists i, j :: 0 <= i < |entropy| && 0 <= j < |entropy[i]| && entropy[i][j] < 1
  {
    if |entropy| == 0 then false
    else
      var rest := CheckContradicted(entropy[1..]);
      assert forall i :: 1 <= i < |entropy| ==> entropy[i] == entropy[1..][i - 1];
      RowHasEmpty(entropy[0]) || rest
  }

  /** The two `TypeError`s the loop body can throw. */
  datatype Crash =
    | NoField                      // `placeTile(undefined)` after `chooseNextField` found no candidate
    | Placement(error: PlaceError) // `reduce` on the weights of a tile-less domain

  /**
   * One iteration of the `collapse` loop: choose a field, place a tile there,
   * propagate from it, and recompute both flags from the resulting entropies.
   * A throw leaves the model as it was.
   */
  function Step(m: WfcModel, d: Draw): (r: Result<WfcModel, Crash>)
    requires Valid(m)
    ensures r.Failure? <==>
              (forall i, j :: 0 <= i < m.rows && 0 <= j < m.cols ==> m.grid.entropy[i][j] <= 1) || |m.tiles| == 0
    ensures r.Success? ==> Valid(r.value) && r.value.tiles == m.tiles && r.value.rows == m.rows && r.value.cols == m.cols
    ensures r.Success? ==> Shrinks(m.grid, r.value.grid) && EntropyNonIncreasing(m.grid, r.value.grid)
    ensures r.Success? ==> r.value.isCollapsed == CheckCollapsed(r.value.grid.entropy)
    ensures r.Success? ==> r.value.isContradicted == CheckContradicted(r.value.grid.entropy)
    ensures r.Success? && Consistent(m.grid) ==> Consistent(r.value.grid)
  {
    match ChooseNextField(m.grid.entropy, d.tie)
    case None => Failure(NoField)
    case Some(p) =>
      if |m.tiles| == 0 then
        PlaceFailsWithoutTiles(m, p, d.pick);
        Failure(Placement(EmptyReduce))
      else
        var g := PlaceAndPropagate(m, p, d.pick);
        Success(m.(grid := g, isCollapsed := CheckCollapsed(g.entropy), isContradicted := CheckContradicted(g.entropy)))
  }

  lemma PlaceFailsWithoutTiles(m: WfcModel, p: Pos, u: Unit)
    requires Valid(m) && |m.tiles| == 0
    requires 0 <= p.row < |m.grid.entropy| && 0 <= p.col < |m.grid.entropy[p.row]|
    ensures IsFieldOnOutput(m.grid.output, p) && PlaceTile(m.tiles, m.grid, p, u) == Failure(EmptyReduce)
  {
  }

  /** `placeTile` at a field with entropy above one, then `propagateChanges` from it. */
  function PlaceAndPropagate(m: WfcModel, p: Pos, u: Unit): (g: Grid)
    requires Valid(m) && |m.tiles| > 0
    requires 0 <= p.row < |m.grid.entropy| && 0 <= p.col < |m.grid.entropy[p.row]| && m.grid.entropy[p.row][p.col] > 1
    ensures Shaped(g, |m.tiles|) && Rectangular(g.output, m.rows, m.cols)
    ensures Shrinks(m.grid, g) && EntropyNonIncreasing(m.grid, g)
    ensures Consistent(m.grid) ==> Consistent(g)
    ensures PositiveWeights(m.tiles) && Consistent(m.grid) ==> g.entropy[p.row][p.col] <= 1
  {
    assert IsFieldOnOutput(m.grid.output, p);
    var g1 := PlaceTile(m.tiles, m.grid, p, u).value;
    PlaceLowersEntropy(m.tiles, m.grid, p, u);
    var g2 := PropagateChanges(m.tiles, g1, p);
    SetFacts(m.grid, g1, g2);
    PositivePlacementSettles(m, p, u);
    g2
  }

  lemma PlaceLowersEntropy(tiles: seq<Tile>, g: Grid, p: Pos, u: Unit)
    requires Shaped(g, |tiles|) && |tiles| > 0 && IsFieldOnOutput(g.output, p) && g.entropy[p.row][p.col] > 1
    ensures PlaceTile(tiles, g, p, u).Success?
    ensures EntropyNonIncreasing(g, PlaceTile(tiles, g, p, u).value)
  {
    var g1 := PlaceTile(tiles, g, p, u).value;
    forall i, j | 0 <= i < |g.entropy| && 0 <= j < |g.entropy[i]| && i < |g1.entropy| && j < |g1.entropy[i]|
      ensures g1.entropy[i][j] <= g.entropy[i][j]
    {
    }
  }

  lemma PositivePlacementSettles(m: WfcModel, p: Pos, u: Unit)
    requires Valid(m) && |m.tiles| > 0
    requires 0 <= p.row < |m.grid.entropy| && 0 <= p.col < |m.grid.entropy[p.row]| && m.grid.entropy[p.row][p.col] > 1
    ensures IsFieldOnOutput(m.grid.output, p) && PlaceTile(m.tiles, m.grid, p, u).Success?
    ensures PositiveWeights(m.tiles) && Consistent(m.grid) ==>
              PropagateChanges(m.tiles, PlaceTile(m.tiles, m.grid, p, u).value, p).entropy[p.row][p.col] <= 1
  {
    assert IsFieldOnOutput(m.grid.output, p);
    if PositiveWeights(m.tiles) && Consistent(m.grid) {
      PlaceTileWithPositiveWeights(m.tiles, m.grid, p, u);
      var g1 := PlaceTile(m.tiles, m.grid, p, u).value;
      assert IsFieldOnOutput(g1.output, p);
    }
  }

  lemma SetFacts(g0: Grid, g1: Grid, g2: Grid)
    requires MapsAligned(g0) && MapsAligned(g1) && MapsAligned(g2) && SameDims(g0, g1) && SameDims(g1, g2)
    requires Shrinks(g0, g1) && Shrinks(g1, g2)
    requires EntropyNonIncreasing(g0, g1) && EntropyNonIncreasing(g1, g2)
    ensures Shrinks(g0, g2) && EntropyNonIncreasing(g0, g2)
  {
    ShrinksTrans(g0, g1, g2);
    NonIncreasingTrans(g0, g1, g2);
  }

  /**
   * With positive weights and `entropy == popcount`, an iteration on a grid with
   * an undecided field never throws and settles at least one field for good.
   */
  lemma StepSettlesAField(m: WfcModel, d: Draw)
    requires Valid(m) && Consistent(m.grid) && PositiveWeights(m.tiles)
    requires Undecided(m.grid.entropy) > 0
    ensures Step(m, d).Success?
    ensures Undecided(Step(m, d).value.grid.entropy) < Undecided(m.grid.entropy)
  {
    var ent := m.grid.entropy;
    UndecidedZero(ent);
    var p := ChooseNextField(ent, d.tie).value;
    assert m.grid.entropy[p.row][p.col] == Count(m.grid.output[p.row][p.col]);
    CountAtMostLength(m.grid.output[p.row][p.col]);
    var g := PlaceAndPropagate(m, p, d.pick);
    SettlingLowersUndecided(m.grid, g, p);
  }

  lemma SettlingLowersUndecided(g0: Grid, g: Grid, p: Pos)
    requires MapsAligned(g0) && MapsAligned(g) && SameDims(g0, g) && EntropyNonIncreasing(g0, g)
    requires 0 <= p.row < |g0.entropy| && 0 <= p.col < |g0.entropy[p.row]|
    requires g0.entropy[p.row][p.col] > 1 && g.entropy[p.row][p.col] <= 1
    ensures Undecided(g.entropy) < Undecided(g0.entropy)
  {
    UndecidedMono(g0.entropy, g.entropy, p);
  }

  /** How a call to `collapse` ended. */
  datatype Stop =
    | Finished       // the loop condition failed: one of the flags is set
    | OutOfDraws     // the loop would go on, but no further draw was supplied
    | Threw(error: Crash)

  datatype Outcome = Outcome(model: WfcModel, iterations: nat, stop: Stop)

  /**
   * `collapse`: loop while neither flag is set. The loop ends exactly when a
   * flag is set, domains only shrink, entropies never rise, and the invariant
   * `entropy == popcount` carries through.
   */
  function Collapse(m: WfcModel, draws: seq<Draw>): (r: Outcome)
    requires Valid(m)
    ensures Valid(r.model) && r.model.tiles == m.tiles && r.model.rows == m.rows && r.model.cols == m.cols
    ensures r.iterations <= |draws|
    ensures r.stop.Finished? <==> r.model.isCollapsed || r.model.isContradicted
    ensures r.iterations == 0 ==> r.model == m
    ensures r.stop.Threw? ==> r.iterations == 0 && r.model == m
    ensures r.stop.Threw? ==> |draws| > 0 && Step(m, draws[0]).Failure?
    ensures r.iterations > 0 ==>
              && r.model.isCollapsed == CheckCollapsed(r.model.grid.entropy)
              && r.model.isContradicted == CheckContradicted(r.model.grid.entropy)
    ensures Shrinks(m.grid, r.model.grid) && EntropyNonIncreasing(m.grid, r.model.grid)
    ensures Consistent(m.grid) ==> Consistent(r.model.grid)
    decreases |draws|
  {
    if m.isCollapsed || m.isContradicted then
      Unchanged(m.grid);
      Outcome(m, 0, Finished)
    else if |draws| == 0 then
      Unchanged(m.grid);
      Outcome(m, 0, OutOfDraws)
    else
      match Step(m, draws[0])
      case Failure(e) =>
        Unchanged(m.grid);
        Outcome(m, 0, Threw(e))
      case Success(m') =>
        var rest := Collapse(m', draws[1..]);
        SetFacts(m.grid, m'.grid, rest.model.grid);
        NextStepSucceeds(m, draws[0], draws[1..]);
        Outcome(rest.model, rest.iterations + 1, rest.stop)
  }

  /** After an iteration that leaves both flags false, the next iteration cannot throw. */
  lemma NextStepSucceeds(m: WfcModel, d: Draw, later: seq<Draw>)
    requires Valid(m) && Step(m, d).Success?
    ensures !Step(m, d).value.isCollapsed && !Step(m, d).value.isContradicted && |later| > 0 ==>
              Step(Step(m, d).value, later[0]).Success?
  {
  }

  lemma Unchanged(g: Grid)
    ensures Shrinks(g, g) && EntropyNonIncreasing(g, g)
  {
  }

  /**
   * Termination of the driver: from a consistent grid with positive weights and
   * an undecided field, the loop finishes (never throws) within as many
   * iterations as there are undecided fields, so within rows*cols, provided that
   * many draws are supplied.
   */
  lemma {:induction false} CollapseWithinUndecided(m: WfcModel, draws: seq<Draw>)
    requires Valid(m) && Consistent(m.grid) && PositiveWeights(m.tiles)
    requires !m.isCollapsed && !m.isContradicted && Undecided(m.grid.entropy) > 0
    requires |draws| >= Undecided(m.grid.entropy)
    ensures Collapse(m, draws).stop == Finished
    ensures Collapse(m, draws).iterations <= Undecided(m.grid.entropy) <= m.rows * m.cols
    decreases |draws|
  {
    UndecidedAtMostCells(m.grid.entropy, m.cols);
    StepSettlesAField(m, draws[0]);
    var m' := Step(m, draws[0]).value;
    if !m'.isCollapsed && !m'.isContradicted {
      UndecidedZero(m'.grid.entropy);
      CollapseWithinUndecided(m', draws[1..]);
    }
  }

  /** When the grid reads as collapsed and not contradicted, every field holds exactly one tile. */
  lemma CollapsedFieldsHoldOneTile(m: WfcModel)
    requires Valid(m) && Consistent(m.grid)
    requires CheckCollapsed(m.grid.entropy) && !CheckContradicted(m.grid.entropy)
    ensures forall i, j :: 0 <= i < m.rows && 0 <= j < m.cols ==> Count(m.grid.output[i][j]) == 1
  {
  }

  /** The two checks are independent: a grid with an empty and a settled field satisfies both. */
  lemma BothChecksCanHold()
    ensures CheckCollapsed([[0, 1]]) && CheckContradicted([[0, 1]])
  {
    assert [[0, 1]][0][0] < 1;
  }

  /**
   * `reCollapse`: `initializeOutput` then `collapse`. The flags are not reset,
   * so after any finished run the loop does not execute: the model is left with
   * a fresh, fully superposed grid and the old flags.
   */
  function ReCollapse(m: WfcModel, draws: seq<Draw>): (r: Outcome)
    requires Valid(m)
    ensures Valid(r.model) && Consistent(r.model.grid)
    ensures m.isCollapsed || m.isContradicted ==>
              && r.iterations == 0 && r.stop == Finished
              && r.model.isCollapsed == m.isCollapsed && r.model.isContradicted == m.isContradicted
              && r.model.grid == Initialize(m.rows, m.cols, |m.tiles|)
  {
    Collapse(InitializeOutput(m), draws)
  }

  /**
   * The loop with both checks evaluated before the first iteration, so that the
   * flags always describe the current grid.
   */
  function CollapseChecked(m: WfcModel, draws: seq<Draw>): (r: Outcome)
    requires Valid(m)
    ensures Valid(r.model)
    ensures r.stop.Finished? ==>
              && r.model.isCollapsed == CheckCollapsed(r.model.grid.entropy)
              && r.model.isContradicted == CheckContradicted(r.model.grid.entropy)
    ensures Consistent(m.grid) && PositiveWeights(m.tiles) && |draws| >= Undecided(m.grid.entropy) ==>
              r.stop == Finished && r.iterations <= m.rows * m.cols
  {
    var ent := m.grid.entropy;
    var checked := m.(isCollapsed := CheckCollapsed(ent), isContradicted := CheckContradicted(ent));
    CheckedFinishes(checked, draws);
    Collapse(checked, draws)
  }

  lemma CheckedFinishes(m: WfcModel, draws: seq<Draw>)
    requires Valid(m)
    requires m.isCollapsed == CheckCollapsed(m.grid.entropy) && m.isContradicted == CheckContradicted(m.grid.entropy)
    ensures Consistent(m.grid) && PositiveWeights(m.tiles) && |draws| >= Undecided(m.grid.entropy) ==>
              Collapse(m, draws).stop == Finished && Collapse(m, draws).iterations <= m.rows * m.cols
  {
    UndecidedAtMostCells(m.grid.entropy, m.cols);
    if Consistent(m.grid) && PositiveWeights(m.tiles) && |draws| >= Undecided(m.grid.entropy)
       && !m.isCollapsed && !m.isContradicted {
      UndecidedZero(m.grid.entropy);
      CollapseWithinUndecided(m, draws);
    }
  }

  /** `reCollapse` with the flags recomputed from the fresh grid, as a retry after a finished run needs. */
  function ReCollapseReset(m: WfcModel, draws: seq<Draw>): (r: Outcome)
    requires Valid(m)
    ensures Valid(r.model) && Consistent(r.model.grid)
    ensures r.stop.Finished? ==>
              && r.model.isCollapsed == CheckCollapsed(r.model.grid.entropy)
              && r.model.isContradicted == CheckContradicted(r.model.grid.entropy)
    ensures PositiveWeights(m.tiles) && |draws| >= m.rows * m.cols ==>
              r.stop == Finished && r.iterations <= m.rows * m.cols
  {
    var reset := InitializeOutput(m);
    UndecidedAtMostCells(reset.grid.entropy, m.cols);
    CollapseChecked(reset, draws)
  }

  /**
   * One tile on a 1×1 grid: the source's loop runs once before any check,
   * finds no field above entropy one and throws; the checked loop finishes at
   * once with the grid collapsed.
   */
  lemma OneTileScenario()
    ensures var m := Construct([Tile("t", 1, [])], 1, 1);
            var d := Draw(Fraction(0, 1), Fraction(0, 1));
            && Collapse(m, [d]).stop == Threw(NoField)
            && CollapseChecked(m, []).stop == Finished
            && CollapseChecked(m, []).model.isCollapsed
            && !CollapseChecked(m, []).model.isContradicted
  {
    var m := Construct([Tile("t", 1, [])], 1, 1);
    assert m.grid.entropy[0][0] == 1;
  }

  /** After a contradiction, `reCollapse` runs no iteration and the model still reports the contradiction. */
  lemma ReCollapseKeepsContradiction(m: WfcModel, draws: seq<Draw>)
    requires Valid(m) && m.isContradicted
    ensures ReCollapse(m, draws).model.isContradicted && ReCollapse(m, draws).iterations == 0
  {
  }
}

=== FILE: grid.dfy ===
/**
 * The mutable state of a `WfcModel`: `output`, a rows×cols array of boolean
 * domain vectors over tile indices, and the parallel `entropyMap` of counts.
 * The model keeps both as immutable nested sequences and describes every
 * mutation as a new `Grid`.
 */
module GridState {
  import opened TileCatalog

  /** A `[row, col]` field; either index may be off the grid, as neighbours are. */
  datatype Pos = Pos(row: int, col: int)

  /** `output[i][j][t]` says tile t is still possible at (i, j); `entropy[i][j]` is the stored count. */
  datatype Grid = Grid(output: seq<seq<seq<bool>>>, entropy: seq<seq<int>>)

  /** The field one step away in direction d (rows grow downwards). */
  function Neighbour(p: Pos, d: Dir): (q: Pos)
    ensures Adjacent(p, q)
  {
    match d
    case Up => Pos(p.row - 1, p.col)
    case Right => Pos(p.row, p.col + 1)
    case Down => Pos(p.row + 1, p.col)
    case Left => Pos(p.row, p.col - 1)
  }

  /** Orthogonal neighbours: the fields differ by one in exactly one coordinate. */
  predicate Adjacent(p: Pos, q: Pos)
  {
    (p.row == q.row && (p.col - q.col == 1 || q.col - p.col == 1))
    || (p.col == q.col && (p.row - q.row == 1 || q.row - p.row == 1))
  }

  /** The single bounds predicate: the row must exist and the column must exist in that row. */
  function IsFieldOnOutput(output: seq<seq<seq<bool>>>, p: Pos): (r: bool)
    ensures r ==> 0 <= p.row < |output| && 0 <= p.col < |output[p.row]|
    ensures forall rows: nat, cols: nat {:trigger Rectangular(output, rows, cols)} ::
              Rectangular(output, rows, cols) ==> (r <==> 0 <= p.row < rows && 0 <= p.col < cols)
  {
    if p.row < 0 || p.col < 0 then false
    else p.row < |output| && p.col < |output[p.row]|
  }

  /** `output` has `rows` rows of `cols` fields each. */
  predicate Rectangular(output: seq<seq<seq<bool>>>, rows: nat, cols: nat)
  {
    |output| == rows && forall i :: 0 <= i < rows ==> |output[i]| == cols
  }

  /** On a rows×cols grid the bounds predicate is exactly the two range checks. */
  lemma OnOutputIffWithinDims(output: seq<seq<seq<bool>>>, rows: nat, cols: nat, p: Pos)
    requires Rectangular(output, rows, cols)
    ensures IsFieldOnOutput(output, p) <==> 0 <= p.row < rows && 0 <= p.col < cols
  {
  }

  /** The entropy map has the shape of `output`. */
  predicate MapsAligned(g: Grid)
  {
    |g.entropy| == |g.output| && forall i :: 0 <= i < |g.output| ==> |g.entropy[i]| == |g.output[i]|
  }

  /** The maps are aligned and every domain vector has n entries. */
  predicate Shaped(g: Grid, n: nat)
  {
    && MapsAligned(g)
    && (forall i, j :: 0 <= i < |g.output| && 0 <= j < |g.output[i]| ==> |g.output[i][j]| == n)
  }

  /** Two grids have the same rows and the same number of fields in every row. */
  predicate SameDims(g: Grid, h: Grid)
  {
    |h.output| == |g.output| && forall i :: 0 <= i < |g.output| ==> |h.output[i]| == |g.output[i]|
  }

  /** Number of tiles a domain vector still allows. */
  function Count(dom: seq<bool>): nat
  {
    if |dom| == 0 then 0 else (if dom[0] then 1 else 0) + Count(dom[1..])
  }

  /** The invariant `entropy == popcount(domain)` at every field. */
  predicate Consistent(g: Grid)
  {
    forall i, j ::
      0 <= i < |g.output| && 0 <= j < |g.output[i]| && i < |g.entropy| && j < |g.entropy[i]|
      ==> g.entropy[i][j] == Count(g.output[i][j])
  }

  /** b allows no tile that a does not: a domain only ever loses bits. */
  predicate SubDomain(a: seq<bool>, b: seq<bool>)
  {
    |b| == |a| && forall k :: 0 <= k < |a| && b[k] ==> a[k]
  }

  /** Every domain of h is a sub-domain of the same field's domain in g. */
  predicate Shrinks(g: Grid, h: Grid)
  {
    SameDims(g, h)
    && forall i, j :: 0 <= i < |g.output| && 0 <= j < |g.output[i]| ==> SubDomain(g.output[i][j], h.output[i][j])
  }

  /** No stored entropy of h exceeds the same field's entropy in g. */
  predicate EntropyNonIncreasing(g: Grid, h: Grid)
  {
    forall i, j ::
      0 <= i < |g.entropy| && 0 <= j < |g.entropy[i]| && i < |h.entropy| && j < |h.entropy[i]|
      ==> h.entropy[i][j] <= g.entropy[i][j]
  }

  /** The vector `fill(false)` followed by setting index t: only tile t remains. */
  function Singleton(n: nat, t: nat): (dom: seq<bool>)
    requires t < n
    ensures |dom| == n && Count(dom) == 1
    ensures forall k :: 0 <= k < n ==> (dom[k] <==> k == t)
  {
    var dom := seq(n, k => k == t);
    CountSingleton(dom, t);
    dom
  }

  /** One field replaced, everything else as it was. */
  function SetCell(g: Grid, p: Pos, dom: seq<bool>, ent: int): (h: Grid)
    requires Shaped(g, |dom|) && IsFieldOnOutput(g.output, p)
    ensures Shaped(h, |dom|) && SameDims(g, h)
    ensures h.output[p.row][p.col] == dom && h.entropy[p.row][p.col] == ent
    ensures forall i, j :: 0 <= i < |g.output| && 0 <= j < |g.output[i]| && (i != p.row || j != p.col)
              ==> h.output[i][j] == g.output[i][j] && h.entropy[i][j] == g.entropy[i][j]
  {
    Grid(g.output[p.row := g.output[p.row][p.col := dom]],
         g.entropy[p.row := g.entropy[p.row][p.col := ent]])
  }

  /** Two grids of the same dimensions agree on which fields are on the grid. */
  lemma SameDimsOnOutput(g: Grid, h: Grid)
    requires SameDims(g, h)
    ensures forall x :: IsFieldOnOutput(g.output, x) <==> IsFieldOnOutput(h.output, x)
  {
  }

  /** Replacing one field by a sub-domain with no larger entropy shrinks the grid. */
  lemma SetCellShrinks(g: Grid, p: Pos, dom: seq<bool>, ent: int)
    requires Shaped(g, |dom|) && IsFieldOnOutput(g.output, p)
    requires SubDomain(g.output[p.row][p.col], dom) && ent <= g.entropy[p.row][p.col]
    ensures Shrinks(g, SetCell(g, p, dom, ent)) && EntropyNonIncreasing(g, SetCell(g, p, dom, ent))
    ensures Consistent(g) && ent == Count(dom) ==> Consistent(SetCell(g, p, dom, ent))
    ensures dom != g.output[p.row][p.col] ==> Total(SetCell(g, p, dom, ent).output) < Total(g.output)
  {
    SetCellDomains(g, p, dom, ent);
    SetCellEntropies(g, p, dom, ent);
    SetCellConsistent(g, p, dom, ent);
    CountSubDomain(g.output[p.row][p.col], dom);
    TotalUpdate(g.output, p.row, p.col, dom);
  }

  lemma SetCellDomains(g: Grid, p: Pos, dom: seq<bool>, ent: int)
    requires Shaped(g, |dom|) && IsFieldOnOutput(g.output, p)
    requires SubDomain(g.output[p.row][p.col], dom)
    ensures Shrinks(g, SetCell(g, p, dom, ent))
  {
    var h := SetCell(g, p, dom, ent);
    forall i, j | 0 <= i < |g.output| && 0 <= j < |g.output[i]|
      ensures SubDomain(g.output[i][j], h.output[i][j])
    {
      if i != p.row || j != p.col {
        assert h.output[i][j] == g.output[i][j];
      }
    }
  }

  lemma SetCellEntropies(g: Grid, p: Pos, dom: seq<bool>, ent: int)
    requires Shaped(g, |dom|) && IsFieldOnOutput(g.output, p)
    requires ent <= g.entropy[p.row][p.col]
    ensures EntropyNonIncreasing(g, SetCell(g, p, dom, ent))
  {
    var h := SetCell(g, p, dom, ent);
    forall i, j | 0 <= i < |g.entropy| && 0 <= j < |g.entropy[i]| && i < |h.entropy| && j < |h.entropy[i]|
      ensures h.entropy[i][j] <= g.entropy[i][j]
    {
      if i != p.row || j != p.col {
        assert h.entropy[i][j] == g.entropy[i][j];
      }
    }
  }

  lemma SetCellConsistent(g: Grid, p: Pos, dom: seq<bool>, ent: int)
    requires Shaped(g, |dom|) && IsFieldOnOutput(g.output, p)
    ensures Consistent(g) && ent == Count(dom) ==> Consistent(SetCell(g, p, dom, ent))
  {
    var h := SetCell(g, p, dom, ent);
    if Consistent(g) && ent == Count(dom) {
      forall i, j | 0 <= i < |h.output| && 0 <= j < |h.output[i]| && i < |h.entropy| && j < |h.entropy[i]|
        ensures h.entropy[i][j] == Count(h.output[i][j])
      {
        if i != p.row || j != p.col {
          assert h.entropy[i][j] == g.entropy[i][j] && h.output[i][j] == g.output[i][j];
        }
      }
    }
  }

  lemma ShrinksTrans(a: Grid, b: Grid, c: Grid)
    requires Shrinks(a, b) && Shrinks(b, c)
    ensures Shrinks(a, c)
  {
  }

  lemma NonIncreasingTrans(a: Grid, b: Grid, c: Grid)
    requires MapsAligned(a) && MapsAligned(b) && MapsAligned(c) && SameDims(a, b) && SameDims(b, c)
    requires EntropyNonIncreasing(a, b) && EntropyNonIncreasing(b, c)
    ensures EntropyNonIncreasing(a, c)
  {
  }

  /** A grid of `rows` rows and `cols` columns, every field allowing all n tiles with entropy n. */
  function Initialize(rows: nat, cols: nat, n: nat): (g: Grid)
    ensures Rectangular(g.output, rows, cols) && Shaped(g, n) && Consistent(g)
    ensures forall i, j, k :: 0 <= i < rows && 0 <= j < cols && 0 <= k < n ==> g.output[i][j][k]
    ensures forall i, j :: 0 <= i < rows && 0 <= j < cols ==> g.entropy[i][j] == n
  {
    var full := seq(n, _ => true);
    CountAllTrue(full);
    Grid(seq(rows, _ => seq(cols, _ => full)), seq(rows, _ => seq(cols, _ => n as int)))
  }

  // ----- counting lemmas -----

  lemma {:induction false} CountAllTrue(dom: seq<bool>)
    requires forall k :: 0 <= k < |dom| ==> dom[k]
    ensures Count(dom) == |dom|
  {
    if |dom| > 0 {
      CountAllTrue(dom[1..]);
    }
  }

  lemma {:induction false} CountSingleton(dom: seq<bool>, t: nat)
    requires t < |dom| && forall k :: 0 <= k < |dom| ==> (dom[k] <==> k == t)
    ensures Count(dom) == 1
  {
    if t == 0 {
      CountNone(dom[1..]);
    } else {
      CountSingleton(dom[1..], t - 1);
    }
  }

  lemma {:induction false} CountNone(dom: seq<bool>)
    requires forall k :: 0 <= k < |dom| ==> !dom[k]
    ensures Count(dom) == 0
  {
    if |dom| > 0 {
      CountNone(dom[1..]);
    }
  }

  /** Some tile is allowed exactly when the count is positive. */
  lemma {:induction false} CountPositive(dom: seq<bool>)
    ensures Count(dom) > 0 <==> exists k :: 0 <= k < |dom| && dom[k]
  {
    if |dom| > 0 {
      CountPositive(dom[1..]);
      if !dom[0] && Count(dom[1..]) > 0 {
        var k :| 0 <= k < |dom[1..]| && dom[1..][k];
        assert dom[k + 1];
      }
      if dom[0] {
        assert 0 <= 0 < |dom| && dom[0];
      } else {
        forall k | 0 <= k < |dom| && dom[k]
          ensures 0 <= k - 1 < |dom[1..]| && dom[1..][k - 1]
        {
        }
      }
    }
  }

  lemma {:induction false} CountAtMostLength(dom: seq<bool>)
    ensures Count(dom) <= |dom|
  {
    if |dom| > 0 {
      CountAtMostLength(dom[1..]);
    }
  }

  /** Overwriting one entry changes the count by the difference of the two bits. */
  lemma {:induction false} CountUpdate(dom: seq<bool>, k: nat, b: bool)
    requires k < |dom|
    ensures Count(dom[k := b]) == Count(dom) - (if dom[k] then 1 else 0) + (if b then 1 else 0)
  {
    if k == 0 {
      assert dom[k := b][1..] == dom[1..];
    } else {
      assert dom[k := b][1..] == dom[1..][k - 1 := b];
      CountUpdate(dom[1..], k - 1, b);
    }
  }

  /** Clearing bits never raises the count, and clearing at least one lowers it. */
  lemma {:induction false} CountSubDomain(a: seq<bool>, b: seq<bool>)
    requires SubDomain(a, b)
    ensures Count(b) <= Count(a)
    ensures b != a ==> Count(b) < Count(a)
  {
    if |a| > 0 {
      assert SubDomain(a[1..], b[1..]);
      CountSubDomain(a[1..], b[1..]);
      if b != a && b[1..] == a[1..] {
        assert b[0] != a[0];
      }
    }
  }

  // ----- totals over the grid: the termination measure of propagation -----

  function RowTotal(row: seq<seq<bool>>): nat
  {
    if |row| == 0 then 0 else Count(row[0]) + RowTotal(row[1..])
  }

  /** Number of (field, tile) pairs still possible anywhere on the grid. */
  function Total(output: seq<seq<seq<bool>>>): nat
  {
    if |output| == 0 then 0 else RowTotal(output[0]) + Total(output[1..])
  }

  lemma {:induction false} RowTotalUpdate(row: seq<seq<bool>>, j: nat, dom: seq<bool>)
    requires j < |row|
    ensures RowTotal(row[j := dom]) == RowTotal(row) - Count(row[j]) + Count(dom)
  {
    if j == 0 {
      assert row[j := dom][1..] == row[1..];
    } else {
      assert row[j := dom][1..] == row[1..][j - 1 := dom];
      RowTotalUpdate(row[1..], j - 1, dom);
    }
  }

  lemma {:induction false} TotalUpdate(output: seq<seq<seq<bool>>>, i: nat, j: nat, dom: seq<bool>)
    requires i < |output| && j < |output[i]|
    ensures Total(output[i := output[i][j := dom]]) == Total(output) - Count(output[i][j]) + Count(dom)
  {
    var o' := output[i := output[i][j := dom]];
    if i == 0 {
      assert o'[1..] == output[1..];
      RowTotalUpdate(output[0], j, dom);
    } else {
      assert o'[1..] == output[1..][i - 1 := output[1..][i - 1][j := dom]];
      TotalUpdate(output[1..], i - 1, j, dom);
    }
  }

  // ----- undecided fields: the termination measure of the main loop -----

  function RowUndecided(row: seq<int>): nat
  {
    if |row| == 0 then 0 else (if row[0] > 1 then 1 else 0) + RowUndecided(row[1..])
  }

  /** Number of fields whose entropy is above 1. */
  function Undecided(entropy: seq<seq<int>>): nat
  {
    if |entropy| == 0 then 0 else RowUndecided(entropy[0]) + Undecided(entropy[1..])
  }

  /** Lowering entries never adds undecided fields; settling an undecided field removes one. */
  lemma {:induction false} RowUndecidedMono(a: seq<int>, b: seq<int>, j: int)
    requires |b| == |a| && forall k :: 0 <= k < |a| ==> b[k] <= a[k]
    ensures RowUndecided(b) <= RowUndecided(a)
    ensures 0 <= j < |a| && a[j] > 1 && b[j] <= 1 ==> RowUndecided(b) < RowUndecided(a)
  {
    if |a| > 0 {
      RowUndecidedMono(a[1..], b[1..], j - 1);
    }
  }

  lemma {:induction false} UndecidedMono(a: seq<seq<int>>, b: seq<seq<int>>, p: Pos)
    requires |b| == |a| && forall i :: 0 <= i < |a| ==> |b[i]| == |a[i]|
    requires forall i, j :: 0 <= i < |a| && 0 <= j < |a[i]| ==> b[i][j] <= a[i][j]
    ensures Undecided(b) <= Undecided(a)
    ensures 0 <= p.row < |a| && 0 <= p.col < |a[p.row]| && a[p.row][p.col] > 1 && b[p.row][p.col] <= 1
            ==> Undecided(b) < Undecided(a)
  {
    if |a| > 0 {
      RowUndecidedMono(a[0], b[0], if p.row == 0 then p.col else -1);
      UndecidedMono(a[1..], b[1..], Pos(p.row - 1, p.col));
    }
  }

  /** Undecided fields are fields, so a rows×cols grid has at most rows*cols of them. */
  lemma {:induction false} UndecidedAtMostCells(entropy: seq<seq<int>>, cols: nat)
    requires forall i :: 0 <= i < |entropy| ==> |entropy[i]| == cols
    ensures Undecided(entropy) <= |entropy| * cols
  {
    if |entropy| > 0 {
      RowUndecidedAtMostLength(entropy[0]);
      var rest := entropy[1..];
      assert forall i :: 0 <= i < |rest| ==> |rest[i]| == cols by {
        forall i | 0 <= i < |rest| ensures |rest[i]| == cols {
          assert rest[i] == entropy[i + 1];
        }
      }
      UndecidedAtMostCells(rest, cols);
      assert |entropy| * cols == cols + |rest| * cols;
    }
  }

  lemma {:induction false} RowUndecidedAtMostLength(row: seq<int>)
    ensures RowUndecided(row) <= |row|
  {
    if |row| > 0 {
      RowUndecidedAtMostLength(row[1..]);
    }
  }

  /** The count is zero exactly when no field is above 1. */
  lemma {:induction false} UndecidedZero(entropy: seq<seq<int>>)
    ensures Undecided(entropy) == 0 <==>
            forall i, j :: 0 <= i < |entropy| && 0 <= j < |entropy[i]| ==> entropy[i][j] <= 1
  {
    if |entropy| > 0 {
      RowUndecidedZero(entropy[0]);
      UndecidedZero(entropy[1..]);
      if Undecided(entropy) == 0 {
        forall i, j | 0 <= i < |entropy| && 0 <= j < |entropy[i]|
          ensures entropy[i][j] <= 1
        {
          if i > 0 {
            assert entropy[i] == entropy[1..][i - 1];
          }
        }
      } else if RowUndecided(entropy[0]) == 0 {
        var i, j :| 0 <= i < |entropy[1..]| && 0 <= j < |entropy[1..][i]| && entropy[1..][i][j] > 1;
        assert entropy[i + 1][j] > 1;
      }
    }
  }

  lemma {:induction false} RowUndecidedZero(row: seq<int>)
    ensures RowUndecided(row) == 0 <==> forall j :: 0 <= j < |row| ==> row[j] <= 1
  {
    if |row| > 0 {
      RowUndecidedZero(row[1..]);
      if RowUndecided(row) == 0 {
        forall j | 0 <= j < |row|
          ensures row[j] <= 1
        {
          if j > 0 {
            assert row[j] == row[1..][j - 1];
          }
        }
      }
    }
  }
}

=== FILE: js_sort.dfy ===
/**
 * What `entropyMap.flat().sort().filter(v => v > 1)[0]` computes. Called without
 * a comparator, JavaScript's `Array.prototype.sort` converts every element to its
 * decimal string and orders the strings code unit by code unit, so 10 sorts
 * before 9. The model keeps that order: the selected value is the least value
 * above one under string comparison, which is guaranteed to be the numeric
 * minimum only while the values have a single digit.
 */
module JsSort {
  import opened Wrappers

  function DigitChar(d: nat): char
    requires d < 10
  {
    (48 + d) as char
  }

  /** Decimal digits of a natural number, most significant first, without leading zeros. */
  function Decimal(n: nat): (s: string)
    ensures |s| >= 1
    ensures |s| == 1 <==> n < 10
    ensures forall k :: 0 <= k < |s| ==> '0' <= s[k] <= '9'
  {
    if n < 10 then [DigitChar(n)] else Decimal(n / 10) + [DigitChar(n % 10)]
  }

  /**
   * `String(v)` for an integer value with |v| < 10^21, which every entropy is (it
   * never exceeds the tile count): a minus sign exactly for negatives, then the
   * digits. Larger magnitudes print in exponent notation and are not modelled.
   */
  function JsString(v: int): (s: string)
    ensures |s| >= 1
    ensures s[0] == '-' <==> v < 0
    ensures forall k :: (if v < 0 then 1 else 0) <= k < |s| ==> '0' <= s[k] <= '9'
  {
    if v < 0 then "-" + Decimal(-v) else Decimal(v)
  }

  /** Different numbers render differently, so string order never ties two distinct entropies. */
  lemma JsStringInjective(a: int, b: int)
    requires JsString(a) == JsString(b)
    ensures a == b
  {
    if a < 0 && b < 0 {
      assert Decimal(-a) == JsString(a)[1..] == JsString(b)[1..] == Decimal(-b);
      DecimalInjective(-a, -b);
    } else if a >= 0 && b >= 0 {
      DecimalInjective(a, b);
    }
  }

  /** JavaScript's `a <= b` on strings: code units compared in turn, a proper prefix first. */
  predicate StrLe(a: string, b: string)
  {
    |a| == 0 || (|b| > 0 && (a[0] < b[0] || (a[0] == b[0] && StrLe(a[1..], b[1..]))))
  }

  lemma {:induction false} StrLeRefl(a: string)
    ensures StrLe(a, a)
  {
    if |a| > 0 {
      StrLeRefl(a[1..]);
    }
  }

  lemma {:induction false} StrLeTotal(a: string, b: string)
    ensures StrLe(a, b) || StrLe(b, a)
  {
    if |a| > 0 && |b| > 0 && a[0] == b[0] {
      StrLeTotal(a[1..], b[1..]);
    }
  }

  lemma {:induction false} StrLeTrans(a: string, b: string, c: string)
    requires StrLe(a, b) && StrLe(b, c)
    ensures StrLe(a, c)
  {
    if |a| > 0 && a[0] == b[0] && b[0] == c[0] {
      StrLeTrans(a[1..], b[1..], c[1..]);
    }
  }

  lemma {:induction false} StrLeAntisym(a: string, b: string)
    requires StrLe(a, b) && StrLe(b, a)
    ensures a == b
  {
    if |a| > 0 {
      StrLeAntisym(a[1..], b[1..]);
      assert a == [a[0]] + a[1..];
      assert b == [b[0]] + b[1..];
    }
  }

  /** Distinct numbers have distinct decimal forms. */
  lemma {:induction false} DecimalInjective(m: nat, n: nat)
    requires Decimal(m) == Decimal(n)
    ensures m == n
  {
    if m >= 10 {
      var s := Decimal(m);
      assert Decimal(m / 10) == s[..|s| - 1] == Decimal(n / 10);
      DecimalInjective(m / 10, n / 10);
      assert DigitChar(m % 10) == s[|s| - 1] == DigitChar(n % 10);
    }
  }

  /** Sorted the way `.sort()` leaves an array of numbers. */
  predicate DefaultSorted(s: seq<int>)
  {
    forall i, j :: 0 <= i < j < |s| ==> StrLe(JsString(s[i]), JsString(s[j]))
  }

  /** `s.filter(v => v > 1)`. */
  function AboveOne(s: seq<int>): (r: seq<int>)
    ensures forall v :: v in r <==> v in s && v > 1
  {
    if |s| == 0 then []
    else if s[0] > 1 then [s[0]] + AboveOne(s[1..])
    else AboveOne(s[1..])
  }

  /**
   * The lowest entropy above one as the source selects it, found in a single
   * pass: `None` is the `undefined` of an empty filter result.
   */
  function LowestAboveOne(xs: seq<int>): (r: Option<int>)
    ensures r.Some? <==> exists k :: 0 <= k < |xs| && xs[k] > 1
    ensures r.Some? ==> r.value > 1 && r.value in xs
    ensures r.Some? ==>
              forall k :: 0 <= k < |xs| && xs[k] > 1 ==> StrLe(JsString(r.value), JsString(xs[k]))
  {
    if |xs| == 0 then None
    else
      var rest := LowestAboveOne(xs[1..]);
      assert forall k :: 1 <= k < |xs| ==> xs[k] == xs[1..][k - 1];
      if xs[0] <= 1 then rest
      else if rest.None? then
        StrLeRefl(JsString(xs[0]));
        Some(xs[0])
      else
        StrLeTotal(JsString(xs[0]), JsString(rest.value));
        StrLeRefl(JsString(xs[0]));
        StrLeRefl(JsString(rest.value));
        if StrLe(JsString(xs[0]), JsString(rest.value)) then
          LeastStaysLeast(xs, xs[0], rest.value);
          Some(xs[0])
        else
          rest
  }

  lemma LeastStaysLeast(xs: seq<int>, a: int, m: int)
    requires |xs| > 0
    requires StrLe(JsString(a), JsString(m))
    requires forall k :: 1 <= k < |xs| && xs[k] > 1 ==> StrLe(JsString(m), JsString(xs[k]))
    ensures forall k :: 1 <= k < |xs| && xs[k] > 1 ==> StrLe(JsString(a), JsString(xs[k]))
  {
    forall k | 1 <= k < |xs| && xs[k] > 1
      ensures StrLe(JsString(a), JsString(xs[k]))
    {
      StrLeTrans(JsString(a), JsString(m), JsString(xs[k]));
    }
  }

  /** In a default-sorted array the first value above one is the least of them in string order. */
  lemma {:induction false} FirstAboveOneIsLeast(s: seq<int>)
    requires DefaultSorted(s) && |AboveOne(s)| > 0
    ensures AboveOne(s)[0] in s && AboveOne(s)[0] > 1
    ensures forall k :: 0 <= k < |s| && s[k] > 1 ==> StrLe(JsString(AboveOne(s)[0]), JsString(s[k]))
  {
    if s[0] > 1 {
      StrLeRefl(JsString(s[0]));
    } else {
      assert DefaultSorted(s[1..]) by {
        forall i, j | 0 <= i < j < |s[1..]|
          ensures StrLe(JsString(s[1..][i]), JsString(s[1..][j]))
        {
          assert s[1..][i] == s[i + 1] && s[1..][j] == s[j + 1];
        }
      }
      FirstAboveOneIsLeast(s[1..]);
      forall k | 0 <= k < |s| && s[k] > 1
        ensures StrLe(JsString(AboveOne(s)[0]), JsString(s[k]))
      {
        assert s[k] == s[1..][k - 1];
      }
    }
  }

  /**
   * `LowestAboveOne` is the value the source reads: for ANY ordering that a
   * default `.sort()` can produce from xs, the first element that survives
   * `.filter(v => v > 1)` is `LowestAboveOne(xs)`, and the filter is empty
   * exactly when `LowestAboveOne(xs)` is `None`.
   */
  lemma SortFilterFirst(xs: seq<int>, sorted: seq<int>)
    requires multiset(sorted) == multiset(xs) && DefaultSorted(sorted)
    ensures |AboveOne(sorted)| > 0 <==> LowestAboveOne(xs).Some?
    ensures |AboveOne(sorted)| > 0 ==> AboveOne(sorted)[0] == LowestAboveOne(xs).value
  {
    var low := LowestAboveOne(xs);
    forall v
      ensures v in sorted <==> v in xs
    {
      assert v in sorted <==> v in multiset(sorted);
      assert v in xs <==> v in multiset(xs);
    }
    if |AboveOne(sorted)| > 0 {
      var f := AboveOne(sorted)[0];
      assert f in AboveOne(sorted);
      FirstAboveOneIsLeast(sorted);
      var k :| 0 <= k < |xs| && xs[k] == f;
      assert low.Some?;
      var m := low.value;
      var km :| 0 <= km < |sorted| && sorted[km] == m;
      StrLeAntisym(JsString(f), JsString(m));
      DecimalInjective(f, m);
    }
  }

  /** With single-digit values the string order agrees with the numeric one. */
  lemma SingleDigitsSortNumerically(xs: seq<int>)
    requires forall k :: 0 <= k < |xs| && xs[k] > 1 ==> xs[k] < 10
    ensures LowestAboveOne(xs).Some? ==>
              forall k :: 0 <= k < |xs| && xs[k] > 1 ==> LowestAboveOne(xs).value <= xs[k]
  {
    var low := LowestAboveOne(xs);
    if low.Some? {
      forall k | 0 <= k < |xs| && xs[k] > 1
        ensures low.value <= xs[k]
      {
        assert StrLe([DigitChar(low.value)], [DigitChar(xs[k])]);
      }
    }
  }

  /** Entropies 9 and 10: the string order picks 10, not the numeric minimum 9. */
  lemma TenSortsBeforeNine()
    ensures LowestAboveOne([9, 10]) == Some(10)
  {
    assert Decimal(10) == "10";
    assert JsString(9) == "9";
    assert !StrLe("9", "10");
    assert LowestAboveOne([10]) == Some(10);
    assert [9, 10][1..] == [10];
  }
}

=== FILE: placement.dfy ===
/**
 * `placeTile`: a weighted draw over the tiles still possible at one field. The
 * in-domain weights are summed, `Math.random()` is scaled by the sum, and the
 * tiles are walked in catalog order, subtracting each passed weight from the
 * draw, until a tile's weight reaches what is left. Zero weights are skipped.
 *
 * Weights are naturals and the draw u is the exact fraction num/den, so the
 * source's running value `randNum` is `rem / den` with integer `rem`.
 */
module Collapser {
  import opened Wrappers
  import opened Random
  import opened TileCatalog
  import opened GridState

  /** The error `reduce` without an initial value throws on an empty weight array. */
  datatype PlaceError = EmptyReduce

  /**
   * `fieldDomainWeights`: each tile's weight where the domain still allows it, 0
   * elsewhere. A tile the domain has ruled out never carries weight, and the
   * total is positive, so that `placeTile` can place anything, exactly when some
   * allowed tile has a positive weight.
   */
  function DomainWeights(tiles: seq<Tile>, dom: seq<bool>): (w: seq<nat>)
    requires |dom| <= |tiles|
    ensures |w| == |dom|
    ensures forall i :: 0 <= i < |dom| ==> w[i] == if dom[i] then tiles[i].weight else 0
    ensures forall i :: 0 <= i < |w| && w[i] > 0 ==> dom[i]
    ensures Sum(w) > 0 <==> exists i :: 0 <= i < |dom| && dom[i] && tiles[i].weight > 0
  {
    var w := seq(|dom|, i requires 0 <= i < |dom| => if dom[i] then tiles[i].weight else 0);
    SumPositiveIff(w);
    w
  }

  function Sum(w: seq<nat>): nat
  {
    if |w| == 0 then 0 else Sum(w[..|w| - 1]) + w[|w| - 1]
  }

  /** Weight of the first i tiles. */
  function Prefix(w: seq<nat>, i: nat): nat
    requires i <= |w|
  {
    Sum(w[..i])
  }

  lemma PrefixStep(w: seq<nat>, i: nat)
    requires i < |w|
    ensures Prefix(w, i + 1) == Prefix(w, i) + w[i]
  {
    assert w[..i + 1][..i] == w[..i];
  }

  lemma PrefixAll(w: seq<nat>)
    ensures Prefix(w, |w|) == Sum(w)
  {
    assert w[..|w|] == w;
  }

  /**
   * The selection rule stated directly: tile i has non-zero weight, the weight of
   * tiles 0..i reaches the draw u*S, and no earlier non-zero tile's prefix does.
   */
  predicate FirstReaching(w: seq<nat>, u: Unit, i: int)
  {
    && 0 <= i < |w| && w[i] > 0
    && u.den * Prefix(w, i + 1) >= u.num * Sum(w)
    && forall j :: 0 <= j < i && w[j] > 0 ==> u.den * Prefix(w, j + 1) < u.num * Sum(w)
  }

  /** Each weight multiplied by den, so that the walk compares integers only. */
  function Scale(w: seq<nat>, den: nat): (ws: seq<nat>)
    ensures |ws| == |w| && forall i :: 0 <= i < |w| ==> ws[i] == den * w[i]
  {
    seq(|w|, i requires 0 <= i < |w| => den * w[i])
  }

  lemma {:induction false} PrefixScale(w: seq<nat>, den: nat, i: nat)
    requires i <= |w|
    ensures Prefix(Scale(w, den), i) == den * Prefix(w, i)
  {
    if i > 0 {
      PrefixScale(w, den, i - 1);
      PrefixStep(w, i - 1);
      PrefixStep(Scale(w, den), i - 1);
      ScaleSplit(den, Prefix(w, i - 1), w[i - 1]);
    }
  }

  lemma ScalePositive(den: nat, x: nat)
    requires den > 0
    ensures den * x > 0 <==> x > 0
  {
    if x > 0 {
      MulStrict(0, x, den);
    }
  }

  lemma ScaleSplit(den: nat, x: int, y: int)
    ensures den * (x + y) == den * x + den * y
  {
  }

  /**
   * The source's loop from index i over the scaled weights ws, with `randNum`
   * scaled by den into `rem`: skip zero weights, stop at the first weight that
   * reaches `rem`, otherwise subtract the weight and go on.
   */
  function Walk(ws: seq<nat>, i: nat, rem: int): (r: Option<nat>)
    requires i <= |ws|
    ensures r.Some? ==> i <= r.value < |ws| && ws[r.value] > 0
    ensures r.Some? ==> Prefix(ws, r.value + 1) - Prefix(ws, i) >= rem
    ensures r.Some? ==> forall j :: i <= j < r.value && ws[j] > 0 ==> Prefix(ws, j + 1) - Prefix(ws, i) < rem
    ensures r.None? ==> Sum(ws) == Prefix(ws, i) || Sum(ws) - Prefix(ws, i) < rem
    decreases |ws| - i
  {
    if i == |ws| then
      PrefixAll(ws);
      None
    else
      PrefixStep(ws, i);
      if ws[i] == 0 then
        Walk(ws, i + 1, rem)
      else if ws[i] >= rem then
        Some(i)
      else
        Walk(ws, i + 1, rem - ws[i])
  }

  /**
   * The tile the draw selects among the weights w, or `None` when the loop runs
   * off the end, which happens exactly when every weight is zero.
   */
  function ChooseTile(w: seq<nat>, u: Unit): (r: Option<nat>)
    ensures r.Some? <==> Sum(w) > 0
    ensures r.Some? ==> FirstReaching(w, u, r.value)
  {
    var r := Walk(Scale(w, u.den), 0, u.num * Sum(w));
    WalkIsFirstReaching(w, u);
    r
  }

  /**
   * Started on the whole scaled weight vector, the walk finds a tile exactly
   * when some weight is non-zero, and the tile it finds is the first reaching one.
   */
  lemma WalkIsFirstReaching(w: seq<nat>, u: Unit)
    ensures Walk(Scale(w, u.den), 0, u.num * Sum(w)).Some? <==> Sum(w) > 0
    ensures Walk(Scale(w, u.den), 0, u.num * Sum(w)).Some? ==>
              FirstReaching(w, u, Walk(Scale(w, u.den), 0, u.num * Sum(w)).value)
  {
    var r := Walk(Scale(w, u.den), 0, u.num * Sum(w));
    if r.Some? {
      ScalePositive(u.den, w[r.value]);
      SumPositive(w, r.value);
      WalkFoundReaches(w, u, r.value);
    } else {
      WalkMissesOnlyZero(w, u);
    }
  }

  lemma WalkMissesOnlyZero(w: seq<nat>, u: Unit)
    requires Walk(Scale(w, u.den), 0, u.num * Sum(w)).None?
    ensures Sum(w) == 0
  {
    var ws := Scale(w, u.den);
    var s := Sum(w);
    assert Prefix(ws, 0) == 0;
    PrefixAll(ws);
    PrefixAll(w);
    PrefixScale(w, u.den, |w|);
    assert Sum(ws) == u.den * s;
    if s > 0 {
      DrawBelowTotal(u, s);
      MulStrict(0, s, u.den);
      assert false;
    }
  }

  lemma WalkFoundReaches(w: seq<nat>, u: Unit, k: nat)
    requires Walk(Scale(w, u.den), 0, u.num * Sum(w)) == Some(k)
    ensures FirstReaching(w, u, k)
  {
    var ws := Scale(w, u.den);
    var rem := u.num * Sum(w);
    assert Prefix(ws, 0) == 0;
    assert k < |w| && ws[k] > 0 && Prefix(ws, k + 1) >= rem;
    PrefixScale(w, u.den, k + 1);
    ScalePositive(u.den, w[k]);
    forall j | 0 <= j < k && w[j] > 0
      ensures u.den * Prefix(w, j + 1) < rem
    {
      EarlierMisses(w, u.den, rem, k, j);
    }
  }

  /** A non-zero tile the scaled walk passes has an unscaled prefix below the scaled draw. */
  lemma EarlierMisses(w: seq<nat>, den: nat, rem: int, k: nat, j: nat)
    requires den > 0 && Walk(Scale(w, den), 0, rem) == Some(k) && j < k && w[j] > 0
    ensures den * Prefix(w, j + 1) < rem
  {
    var ws := Scale(w, den);
    ScalePositive(den, w[j]);
    assert ws[j] > 0;
    assert Prefix(ws, 0) == 0;
    PrefixScale(w, den, j + 1);
  }

  /** The scaled draw u*S stays below S whenever S is positive. */
  lemma DrawBelowTotal(u: Unit, s: nat)
    ensures s > 0 ==> u.num * s < u.den * s
  {
    if s > 0 {
      MulStrict(u.num, u.den, s);
    }
  }

  /** At most one tile satisfies the selection rule. */
  lemma FirstReachingUnique(w: seq<nat>, u: Unit, t: int)
    requires FirstReaching(w, u, t)
    ensures forall k :: FirstReaching(w, u, k) ==> k == t
  {
  }

  /**
   * `placeTile` at field p: with the draw u, the selected tile becomes the only
   * one left and the entropy is set to 1. When every in-domain weight is zero no
   * tile is selected and nothing changes; with no tiles at all `reduce` throws.
   */
  function PlaceTile(tiles: seq<Tile>, g: Grid, p: Pos, u: Unit): (r: Result<Grid, PlaceError>)
    requires Shaped(g, |tiles|) && IsFieldOnOutput(g.output, p)
    ensures r.Failure? <==> |tiles| == 0
    ensures r.Success? ==> Shaped(r.value, |tiles|) && SameDims(g, r.value)
    ensures r.Success? ==>
              forall i, j :: 0 <= i < |g.output| && 0 <= j < |g.output[i]| && (i != p.row || j != p.col)
                ==> r.value.output[i][j] == g.output[i][j] && r.value.entropy[i][j] == g.entropy[i][j]
    ensures r.Success? && Sum(DomainWeights(tiles, g.output[p.row][p.col])) == 0 ==> r.value == g
    ensures r.Success? && Sum(DomainWeights(tiles, g.output[p.row][p.col])) > 0 ==>
              && r.value.entropy[p.row][p.col] == 1
              && Count(r.value.output[p.row][p.col]) == 1
              && forall t :: 0 <= t < |tiles| ==>
                   (r.value.output[p.row][p.col][t] <==> FirstReaching(DomainWeights(tiles, g.output[p.row][p.col]), u, t))
    ensures r.Success? ==> Shrinks(g, r.value)
    ensures r.Success? && Consistent(g) ==> Consistent(r.value)
  {
    var dom := g.output[p.row][p.col];
    var w := DomainWeights(tiles, dom);
    if |dom| == 0 then Failure(EmptyReduce)
    else
      match ChooseTile(w, u)
      case None => Success(g)
      case Some(t) =>
        var one := Singleton(|dom|, t);
        assert SubDomain(dom, one);
        FirstReachingUnique(w, u, t);
        Success(SetCell(g, p, one, 1))
  }

  /**
   * With positive weights and a field that still allows some tile, the draw
   * always places a tile: the first one in catalog order that the domain allows
   * and whose cumulative in-domain weight reaches u*S.
   */
  lemma PlaceTileWithPositiveWeights(tiles: seq<Tile>, g: Grid, p: Pos, u: Unit)
    requires Shaped(g, |tiles|) && IsFieldOnOutput(g.output, p)
    requires PositiveWeights(tiles) && Count(g.output[p.row][p.col]) > 0
    ensures PlaceTile(tiles, g, p, u).Success?
    ensures Sum(DomainWeights(tiles, g.output[p.row][p.col])) > 0
    ensures forall t :: FirstReaching(DomainWeights(tiles, g.output[p.row][p.col]), u, t) ==> g.output[p.row][p.col][t]
    ensures forall t :: 0 <= t < |tiles| ==>
              (DomainWeights(tiles, g.output[p.row][p.col])[t] > 0 <==> g.output[p.row][p.col][t])
  {
    var dom := g.output[p.row][p.col];
    var w := DomainWeights(tiles, dom);
    CountPositive(dom);
    var k :| 0 <= k < |dom| && dom[k];
    SumPositive(w, k);
  }

  /** The sum is positive exactly when some weight is. */
  lemma SumPositiveIff(w: seq<nat>)
    ensures Sum(w) > 0 <==> exists i :: 0 <= i < |w| && w[i] > 0
  {
    if exists i :: 0 <= i < |w| && w[i] > 0 {
      var i :| 0 <= i < |w| && w[i] > 0;
      SumPositive(w, i);
    } else {
      SumZero(w);
    }
  }

  lemma {:induction false} SumZero(w: seq<nat>)
    requires forall i :: 0 <= i < |w| ==> w[i] == 0
    ensures Sum(w) == 0
  {
    if |w| > 0 {
      SumZero(w[..|w| - 1]);
    }
  }

  /** One non-zero weight makes the sum non-zero. */
  lemma {:induction false} SumPositive(w: seq<nat>, k: nat)
    requires k < |w| && w[k] > 0
    ensures Sum(w) > 0
  {
    if k < |w| - 1 {
      SumPositive(w[..|w| - 1], k);
    }
  }
}

=== FILE: propagation.dfy ===
/**
 * `propagateChanges` and `pushNeighbours`: after a field collapses, its
 * neighbours are pushed on a LIFO stack (a sequence whose last element is the
 * top). Each popped field keeps only the tiles that every on-grid neighbour
 * still supports, through the neighbour's rule list for the opposite direction;
 * if that clears a bit, the field's own neighbours are pushed in turn.
 */
module Propagator {
  import opened TileCatalog
  import opened GridState

  /** `possibleTiles` before any check: 0, 1, ..., n-1. */
  function Range(n: nat): (r: seq<int>)
    ensures |r| == n
    ensures forall v :: v in r <==> 0 <= v < n
  {
    if n == 0 then [] else Range(n - 1) + [n - 1]
  }

  /**
   * `possibleAdjacentTiles`: rule list k of every tile that dom still allows,
   * concatenated in index order, from tile e on.
   */
  function Union(tiles: seq<Tile>, dom: seq<bool>, k: nat, e: nat): (r: seq<int>)
    requires |dom| <= |tiles| && e <= |dom|
    ensures forall v :: v in r <==> exists f :: e <= f < |dom| && dom[f] && Permits(tiles, f, k, v)
    decreases |dom| - e
  {
    if e == |dom| then []
    else (if dom[e] then RuleList(tiles[e], k) else []) + Union(tiles, dom, k, e + 1)
  }

  /** `xs.filter(v => ys.includes(v))`. */
  function KeepListed(xs: seq<int>, ys: seq<int>): (r: seq<int>)
    ensures forall v :: v in r <==> v in xs && v in ys
  {
    if |xs| == 0 then []
    else (if xs[0] in ys then [xs[0]] else []) + KeepListed(xs[1..], ys)
  }

  /**
   * What the neighbour q imposes through its rule list k: nothing when q is off
   * the grid, otherwise that some tile q still allows lists v.
   */
  predicate SupportedBy(tiles: seq<Tile>, g: Grid, q: Pos, k: nat, v: int)
    requires Shaped(g, |tiles|)
  {
    IsFieldOnOutput(g.output, q) ==>
      exists f :: 0 <= f < |tiles| && g.output[q.row][q.col][f] && Permits(tiles, f, k, v)
  }

  /** One of the four checks: filter xs by the neighbour q's rule list k, if q is on the grid. */
  function NarrowBy(tiles: seq<Tile>, g: Grid, q: Pos, k: nat, xs: seq<int>): (r: seq<int>)
    requires Shaped(g, |tiles|)
    ensures forall v :: v in r <==> v in xs && SupportedBy(tiles, g, q, k, v)
  {
    if IsFieldOnOutput(g.output, q) then KeepListed(xs, Union(tiles, g.output[q.row][q.col], k, 0)) else xs
  }

  /**
   * Tile v may stay at p: it is a tile index and, in every direction d, the
   * neighbour (when on the grid) lists v in its rule for the opposite direction.
   */
  predicate Allowed(tiles: seq<Tile>, g: Grid, p: Pos, v: int)
    requires Shaped(g, |tiles|)
  {
    0 <= v < |tiles| && forall d: Dir :: SupportedBy(tiles, g, Neighbour(p, d), RuleIndex(Opposite(d)), v)
  }

  lemma AllowedByDirection(tiles: seq<Tile>, g: Grid, p: Pos, v: int)
    requires Shaped(g, |tiles|)
    ensures Allowed(tiles, g, p, v) <==>
              && 0 <= v < |tiles|
              && SupportedBy(tiles, g, Neighbour(p, Up), 2, v)
              && SupportedBy(tiles, g, Neighbour(p, Right), 3, v)
              && SupportedBy(tiles, g, Neighbour(p, Down), 0, v)
              && SupportedBy(tiles, g, Neighbour(p, Left), 1, v)
  {
    if && 0 <= v < |tiles|
       && SupportedBy(tiles, g, Neighbour(p, Up), 2, v)
       && SupportedBy(tiles, g, Neighbour(p, Right), 3, v)
       && SupportedBy(tiles, g, Neighbour(p, Down), 0, v)
       && SupportedBy(tiles, g, Neighbour(p, Left), 1, v)
    {
      forall d: Dir
        ensures SupportedBy(tiles, g, Neighbour(p, d), RuleIndex(Opposite(d)), v)
      {
        match d
        case Up =>
        case Right =>
        case Down =>
        case Left =>
      }
    }
    if Allowed(tiles, g, p, v) {
      assert SupportedBy(tiles, g, Neighbour(p, Up), RuleIndex(Opposite(Up)), v);
      assert SupportedBy(tiles, g, Neighbour(p, Right), RuleIndex(Opposite(Right)), v);
      assert SupportedBy(tiles, g, Neighbour(p, Down), RuleIndex(Opposite(Down)), v);
      assert SupportedBy(tiles, g, Neighbour(p, Left), RuleIndex(Opposite(Left)), v);
    }
  }

  /**
   * `possibleTiles` after the four checks, in the source's order: above through
   * rule 2, right through rule 3, below through rule 0, left through rule 1.
   */
  function PossibleTiles(tiles: seq<Tile>, g: Grid, p: Pos): (r: seq<int>)
    requires Shaped(g, |tiles|)
    ensures forall v :: v in r <==> Allowed(tiles, g, p, v)
  {
    var above := NarrowBy(tiles, g, Neighbour(p, Up), 2, Range(|tiles|));
    var right := NarrowBy(tiles, g, Neighbour(p, Right), 3, above);
    var below := NarrowBy(tiles, g, Neighbour(p, Down), 0, right);
    var r := NarrowBy(tiles, g, Neighbour(p, Left), 1, below);
    AllowedEverywhere(tiles, g, p);
    r
  }

  lemma AllowedEverywhere(tiles: seq<Tile>, g: Grid, p: Pos)
    requires Shaped(g, |tiles|)
    ensures forall v {:trigger Allowed(tiles, g, p, v)} :: Allowed(tiles, g, p, v) <==>
              && 0 <= v < |tiles|
              && SupportedBy(tiles, g, Neighbour(p, Up), 2, v)
              && SupportedBy(tiles, g, Neighbour(p, Right), 3, v)
              && SupportedBy(tiles, g, Neighbour(p, Down), 0, v)
              && SupportedBy(tiles, g, Neighbour(p, Left), 1, v)
  {
    forall v {
      AllowedByDirection(tiles, g, p, v);
    }
  }

  /** The outcome of the clearing loop for one field. */
  datatype Restriction = Restriction(dom: seq<bool>, entropy: int, changed: bool)

  /**
   * The clearing loop from index i: a bit that is set but not in `possible` is
   * cleared, the entropy drops by one, and `changed` becomes true.
   */
  function RestrictFrom(dom: seq<bool>, possible: seq<int>, i: nat, ent: int, changed: bool): (r: Restriction)
    requires i <= |dom|
    ensures |r.dom| == |dom|
    ensures forall k :: 0 <= k < i ==> r.dom[k] == dom[k]
    ensures forall k :: i <= k < |dom| ==> r.dom[k] == (dom[k] && k in possible)
    ensures r.entropy == ent - (Count(dom) - Count(r.dom))
    ensures r.changed <==> changed || exists k :: i <= k < |dom| && dom[k] && k !in possible
    decreases |dom| - i
  {
    if i == |dom| then Restriction(dom, ent, changed)
    else if i !in possible && dom[i] then
      CountUpdate(dom, i, false);
      RestrictFrom(dom[i := false], possible, i + 1, ent - 1, true)
    else
      RestrictFrom(dom, possible, i + 1, ent, changed)
  }

  /**
   * The restriction of one field to `possible`: bits are only cleared, exactly
   * the set bits outside `possible` are, each one costs one unit of entropy, and
   * `changed` reports whether any was.
   */
  function Restrict(dom: seq<bool>, ent: int, possible: seq<int>): (r: Restriction)
    ensures SubDomain(dom, r.dom)
    ensures forall k :: 0 <= k < |dom| ==> (r.dom[k] <==> dom[k] && k in possible)
    ensures r.entropy == ent - (Count(dom) - Count(r.dom))
    ensures r.changed <==> r.dom != dom
    ensures ent == Count(dom) ==> r.entropy == Count(r.dom)
  {
    var r := RestrictFrom(dom, possible, 0, ent, false);
    ChangedIffDiffers(dom, r.dom, possible);
    r
  }

  lemma ChangedIffDiffers(dom: seq<bool>, dom': seq<bool>, possible: seq<int>)
    requires |dom'| == |dom| && forall k :: 0 <= k < |dom| ==> dom'[k] == (dom[k] && k in possible)
    ensures dom' != dom <==> exists k :: 0 <= k < |dom| && dom[k] && k !in possible
  {
    if exists k :: 0 <= k < |dom| && dom[k] && k !in possible {
      var k :| 0 <= k < |dom| && dom[k] && k !in possible;
      assert dom'[k] != dom[k];
    }
  }

  /**
   * The pop-and-restrict step for field p: its domain restricted to the tiles
   * that survive the four neighbour checks.
   */
  function Visit(tiles: seq<Tile>, g: Grid, p: Pos): (r: Restriction)
    requires Shaped(g, |tiles|) && IsFieldOnOutput(g.output, p)
    ensures SubDomain(g.output[p.row][p.col], r.dom)
    ensures r.entropy <= g.entropy[p.row][p.col]
    ensures g.entropy[p.row][p.col] == Count(g.output[p.row][p.col]) ==> r.entropy == Count(r.dom)
    ensures r.changed <==> r.dom != g.output[p.row][p.col]
  {
    var r := Restrict(g.output[p.row][p.col], g.entropy[p.row][p.col], PossibleTiles(tiles, g, p));
    CountSubDomain(g.output[p.row][p.col], r.dom);
    r
  }

  /**
   * After a visit, tile t remains at p exactly when it was possible before and
   * every on-grid neighbour still has a tile whose opposite-direction rule lists t.
   */
  lemma VisitKeepsExactlyAllowed(tiles: seq<Tile>, g: Grid, p: Pos, t: int)
    requires Shaped(g, |tiles|) && IsFieldOnOutput(g.output, p) && 0 <= t < |tiles|
    ensures Visit(tiles, g, p).dom[t] <==> g.output[p.row][p.col][t] && Allowed(tiles, g, p, t)
  {
  }

  /** Field q is on the grid and still undecided. */
  predicate Open(g: Grid, q: Pos)
    requires MapsAligned(g)
  {
    IsFieldOnOutput(g.output, q) && g.entropy[q.row][q.col] > 1
  }

  /** `[q]` if q is open, else nothing. */
  function PushIfOpen(g: Grid, q: Pos): seq<Pos>
    requires MapsAligned(g)
  {
    if Open(g, q) then [q] else []
  }

  /**
   * `pushNeighbours`: pushes the neighbours above, right, below and left of p,
   * in that order, each only if it is on the grid and its entropy is above one.
   */
  function PushNeighbours(g: Grid, p: Pos, stack: seq<Pos>): (r: seq<Pos>)
    requires MapsAligned(g)
    ensures |stack| <= |r| <= |stack| + 4 && r[..|stack|] == stack
    ensures forall x :: x in r[|stack|..] ==> Open(g, x) && Adjacent(p, x)
    ensures forall x :: x in r ==> x in stack || (Open(g, x) && Adjacent(p, x))
    ensures forall d: Dir :: Open(g, Neighbour(p, d)) ==> Neighbour(p, d) in r[|stack|..]
  {
    var pushed := PushIfOpen(g, Neighbour(p, Up)) + PushIfOpen(g, Neighbour(p, Right))
                  + PushIfOpen(g, Neighbour(p, Down)) + PushIfOpen(g, Neighbour(p, Left));
    var r := stack + pushed;
    assert r[|stack|..] == pushed;
    AllDirections(g, p, pushed);
    r
  }

  lemma AllDirections(g: Grid, p: Pos, pushed: seq<Pos>)
    requires MapsAligned(g)
    requires pushed == PushIfOpen(g, Neighbour(p, Up)) + PushIfOpen(g, Neighbour(p, Right))
                       + PushIfOpen(g, Neighbour(p, Down)) + PushIfOpen(g, Neighbour(p, Left))
    ensures forall d: Dir :: Open(g, Neighbour(p, d)) ==> Neighbour(p, d) in pushed
  {
    forall d: Dir | Open(g, Neighbour(p, d))
      ensures Neighbour(p, d) in pushed
    {
      match d
      case Up =>
      case Right =>
      case Down =>
      case Left =>
    }
  }

  /** Every tile still possible at x is supported by all of x's on-grid neighbours. */
  predicate LocallyConsistent(tiles: seq<Tile>, g: Grid, x: Pos)
    requires Shaped(g, |tiles|) && IsFieldOnOutput(g.output, x)
  {
    forall t :: 0 <= t < |tiles| && g.output[x.row][x.col][t] ==> Allowed(tiles, g, x, t)
  }

  /** Every undecided field that is not waiting on the stack needs no further narrowing. */
  ghost predicate OpenSettled(tiles: seq<Tile>, g: Grid, stack: seq<Pos>)
    requires Shaped(g, |tiles|)
  {
    forall x :: Open(g, x) && x !in stack ==> LocallyConsistent(tiles, g, x)
  }

  /** Each field adjacent to p is one of p's four neighbours. */
  lemma AdjacentIsNeighbour(p: Pos, x: Pos)
    requires Adjacent(p, x)
    ensures exists d: Dir :: Neighbour(p, d) == x
  {
    if x == Pos(p.row - 1, p.col) {
      assert Neighbour(p, Up) == x;
    } else if x == Pos(p.row, p.col + 1) {
      assert Neighbour(p, Right) == x;
    } else if x == Pos(p.row + 1, p.col) {
      assert Neighbour(p, Down) == x;
    } else {
      assert Neighbour(p, Left) == x;
    }
  }

  /**
   * Rewriting field p leaves the support of a field x unchanged when p is none
   * of x's neighbours.
   */
  lemma FarFieldUnaffected(tiles: seq<Tile>, g: Grid, p: Pos, dom: seq<bool>, ent: int, x: Pos, t: int)
    requires Shaped(g, |tiles|) && |dom| == |tiles| && IsFieldOnOutput(g.output, p)
    requires forall d: Dir :: Neighbour(x, d) != p
    ensures Allowed(tiles, SetCell(g, p, dom, ent), x, t) <==> Allowed(tiles, g, x, t)
  {
    var h := SetCell(g, p, dom, ent);
    SameDimsOnOutput(g, h);
    forall d: Dir
      ensures SupportedBy(tiles, h, Neighbour(x, d), RuleIndex(Opposite(d)), t)
              <==> SupportedBy(tiles, g, Neighbour(x, d), RuleIndex(Opposite(d)), t)
    {
      var q := Neighbour(x, d);
      if IsFieldOnOutput(g.output, q) {
        assert h.output[q.row][q.col] == g.output[q.row][q.col];
      }
    }
  }

  /** A pop that changes nothing leaves the popped field settled. */
  lemma UnchangedStep(tiles: seq<Tile>, g: Grid, stack: seq<Pos>)
    requires Shaped(g, |tiles|) && OnGrid(g, stack) && |stack| > 0
    requires !Visit(tiles, g, stack[|stack| - 1]).changed
    ensures OpenSettled(tiles, g, stack) ==> OpenSettled(tiles, g, stack[..|stack| - 1])
  {
    var p := stack[|stack| - 1];
    var rest := stack[..|stack| - 1];
    PopSplit(stack);
    if OpenSettled(tiles, g, stack) {
      forall x | Open(g, x) && x !in rest
        ensures LocallyConsistent(tiles, g, x)
      {
        if x == p {
          forall t | 0 <= t < |tiles| && g.output[x.row][x.col][t]
            ensures Allowed(tiles, g, x, t)
          {
            VisitKeepsExactlyAllowed(tiles, g, p, t);
          }
        }
      }
    }
  }

  /**
   * A pop that clears a bit at p leaves p settled, and every undecided field
   * whose neighbourhood changed has just been pushed.
   */
  lemma ChangedStep(tiles: seq<Tile>, g: Grid, stack: seq<Pos>, h: Grid, next: seq<Pos>)
    requires Shaped(g, |tiles|) && OnGrid(g, stack) && |stack| > 0
    requires Visit(tiles, g, stack[|stack| - 1]).changed
    requires h == SetCell(g, stack[|stack| - 1], Visit(tiles, g, stack[|stack| - 1]).dom,
                          Visit(tiles, g, stack[|stack| - 1]).entropy)
    requires next == PushNeighbours(h, stack[|stack| - 1], stack[..|stack| - 1])
    ensures Shrinks(g, h) && EntropyNonIncreasing(g, h) && Total(h.output) < Total(g.output)
    ensures Consistent(g) ==> Consistent(h)
    ensures OnGrid(h, next)
    ensures OpenSettled(tiles, g, stack) ==> OpenSettled(tiles, h, next)
  {
    var p := stack[|stack| - 1];
    var rest := stack[..|stack| - 1];
    assert p in stack;
    PopSplit(stack);
    var cell := Visit(tiles, g, p);
    SetCellShrinks(g, p, cell.dom, cell.entropy);
    SameDimsOnOutput(g, h);
    VisitedFieldSettled(tiles, g, p);
    if OpenSettled(tiles, g, stack) {
      forall x | Open(h, x) && x !in next
        ensures LocallyConsistent(tiles, h, x)
      {
        ChangedStepAt(tiles, g, p, rest, cell.dom, cell.entropy, x);
      }
    }
  }

  /**
   * The per-field case of `ChangedStep`: once p is rewritten and settled, an
   * undecided field left off the new stack is settled.
   */
  lemma ChangedStepAt(tiles: seq<Tile>, g: Grid, p: Pos, rest: seq<Pos>, dom: seq<bool>, ent: int, x: Pos)
    requires Shaped(g, |tiles|) && |dom| == |tiles| && IsFieldOnOutput(g.output, p)
    requires OpenSettled(tiles, g, rest + [p])
    requires LocallyConsistent(tiles, SetCell(g, p, dom, ent), p)
    requires Open(SetCell(g, p, dom, ent), x)
    requires x !in PushNeighbours(SetCell(g, p, dom, ent), p, rest)
    ensures LocallyConsistent(tiles, SetCell(g, p, dom, ent), x)
  {
    var h := SetCell(g, p, dom, ent);
    var next := PushNeighbours(h, p, rest);
    if x != p {
      assert x !in rest by {
        assert rest == next[..|rest|];
      }
      if Adjacent(p, x) {
        AdjacentIsNeighbour(p, x);
        assert false;
      }
      SameDimsOnOutput(g, h);
      assert Open(g, x) && x !in rest + [p];
      FarFieldSettled(tiles, g, p, dom, ent, x);
    }
  }

  /** After its visit, the popped field p keeps only tiles its neighbours support. */
  lemma VisitedFieldSettled(tiles: seq<Tile>, g: Grid, p: Pos)
    requires Shaped(g, |tiles|) && IsFieldOnOutput(g.output, p)
    ensures LocallyConsistent(tiles, SetCell(g, p, Visit(tiles, g, p).dom, Visit(tiles, g, p).entropy), p)
  {
    var cell := Visit(tiles, g, p);
    var h := SetCell(g, p, cell.dom, cell.entropy);
    forall t | 0 <= t < |tiles| && h.output[p.row][p.col][t]
      ensures Allowed(tiles, h, p, t)
    {
      VisitKeepsExactlyAllowed(tiles, g, p, t);
      FarFieldUnaffected(tiles, g, p, cell.dom, cell.entropy, p, t);
    }
  }

  /** A settled field that is not adjacent to p stays settled when p is rewritten. */
  lemma FarFieldSettled(tiles: seq<Tile>, g: Grid, p: Pos, dom: seq<bool>, ent: int, x: Pos)
    requires Shaped(g, |tiles|) && |dom| == |tiles| && IsFieldOnOutput(g.output, p) && IsFieldOnOutput(g.output, x)
    requires x != p && !Adjacent(p, x) && LocallyConsistent(tiles, g, x)
    ensures LocallyConsistent(tiles, SetCell(g, p, dom, ent), x)
  {
    var h := SetCell(g, p, dom, ent);
    assert h.output[x.row][x.col] == g.output[x.row][x.col];
    forall t | 0 <= t < |tiles| && h.output[x.row][x.col][t]
      ensures Allowed(tiles, h, x, t)
    {
      FarFieldUnaffected(tiles, g, p, dom, ent, x, t);
    }
  }

  /** A non-empty stack is its lower part with the top on it. */
  lemma PopSplit(stack: seq<Pos>)
    requires |stack| > 0
    ensures stack == stack[..|stack| - 1] + [stack[|stack| - 1]]
  {
  }

  /** Every field on the stack is on the grid. */
  predicate OnGrid(g: Grid, stack: seq<Pos>)
  {
    forall x :: x in stack ==> IsFieldOnOutput(g.output, x)
  }

  /**
   * The `while` loop of `propagateChanges`, popping from the end of `stack`.
   * It terminates because each pass either clears a bit somewhere, lowering the
   * total number of possible (field, tile) pairs, or pops without pushing. It
   * reaches a fixpoint for the undecided fields: if every undecided field off the
   * stack needs no narrowing on entry, then on exit no undecided field does.
   */
  function Propagate(tiles: seq<Tile>, g: Grid, stack: seq<Pos>): (r: Grid)
    requires Shaped(g, |tiles|) && OnGrid(g, stack)
    ensures Shaped(r, |tiles|) && Shrinks(g, r) && EntropyNonIncreasing(g, r)
    ensures Consistent(g) ==> Consistent(r)
    ensures OpenSettled(tiles, g, stack) ==> OpenSettled(tiles, r, [])
    decreases Total(g.output), |stack|
  {
    if |stack| == 0 then g
    else
      var p := stack[|stack| - 1];
      var rest := stack[..|stack| - 1];
      assert p in stack;
      var cell := Visit(tiles, g, p);
      if cell.changed then
        var h := SetCell(g, p, cell.dom, cell.entropy);
        var next := PushNeighbours(h, p, rest);
        ChangedStep(tiles, g, stack, h, next);
        var r := Propagate(tiles, h, next);
        ShrinksTrans(g, h, r);
        NonIncreasingTrans(g, h, r);
        r
      else
        UnchangedStep(tiles, g, stack);
        Propagate(tiles, g, rest)
  }

  /**
   * A field that is settled (entropy at most one) and not on the stack is never
   * pushed and never popped, so propagation leaves it exactly as it was.
   */
  lemma {:induction false} SettledFieldUntouched(tiles: seq<Tile>, g: Grid, stack: seq<Pos>, q: Pos)
    requires Shaped(g, |tiles|) && OnGrid(g, stack)
    requires IsFieldOnOutput(g.output, q) && g.entropy[q.row][q.col] <= 1 && q !in stack
    ensures Propagate(tiles, g, stack).output[q.row][q.col] == g.output[q.row][q.col]
    ensures Propagate(tiles, g, stack).entropy[q.row][q.col] == g.entropy[q.row][q.col]
    decreases Total(g.output), |stack|
  {
    if |stack| > 0 {
      var p := stack[|stack| - 1];
      var rest := stack[..|stack| - 1];
      assert p in stack;
      var cell := Visit(tiles, g, p);
      if cell.changed {
        var h := SetCell(g, p, cell.dom, cell.entropy);
        var next := PushNeighbours(h, p, rest);
        ChangedStep(tiles, g, stack, h, next);
        SameDimsOnOutput(g, h);
        assert !Open(h, q);
        SettledFieldUntouched(tiles, h, next, q);
      } else {
        SettledFieldUntouched(tiles, g, rest, q);
      }
    }
  }

  /**
   * `propagateChanges(p)`: push p's open neighbours and run the loop. Domains
   * only shrink, entropies never rise, `entropy == popcount` is kept, and a
   * settled p (as after `placeTile`) is left as it was. If the only undecided
   * fields that may need narrowing are p's neighbours, afterwards none does.
   */
  function PropagateChanges(tiles: seq<Tile>, g: Grid, p: Pos): (r: Grid)
    requires Shaped(g, |tiles|)
    ensures Shaped(r, |tiles|) && Shrinks(g, r) && EntropyNonIncreasing(g, r)
    ensures Consistent(g) ==> Consistent(r)
    ensures IsFieldOnOutput(g.output, p) && g.entropy[p.row][p.col] <= 1 ==>
              r.output[p.row][p.col] == g.output[p.row][p.col] && r.entropy[p.row][p.col] == g.entropy[p.row][p.col]
    ensures OpenSettled(tiles, g, PushNeighbours(g, p, [])) ==> OpenSettled(tiles, r, [])
  {
    var stack := PushNeighbours(g, p, []);
    SettledOriginUntouched(tiles, g, p);
    Propagate(tiles, g, stack)
  }

  lemma SettledOriginUntouched(tiles: seq<Tile>, g: Grid, p: Pos)
    requires Shaped(g, |tiles|)
    ensures OnGrid(g, PushNeighbours(g, p, []))
    ensures IsFieldOnOutput(g.output, p) && g.entropy[p.row][p.col] <= 1 ==>
              var r := Propagate(tiles, g, PushNeighbours(g, p, []));
              r.output[p.row][p.col] == g.output[p.row][p.col] && r.entropy[p.row][p.col] == g.entropy[p.row][p.col]
  {
    var stack := PushNeighbours(g, p, []);
    if IsFieldOnOutput(g.output, p) && g.entropy[p.row][p.col] <= 1 {
      assert p !in stack;
      SettledFieldUntouched(tiles, g, stack, p);
    }
  }
}

=== FILE: random.dfy ===
/**
 * `Math.random()` made explicit. The source draws a float in [0, 1); the model
 * takes that draw as an input, written as an exact fraction, so every use of it
 * becomes integer arithmetic.
 */
module Random {

  datatype Fraction = Fraction(num: nat, den: nat)

  /** A draw of `Math.random()`: a fraction in [0, 1). */
  type Unit = f: Fraction | f.num < f.den witness Fraction(0, 1)

  /** `Math.floor(u * n)` for a non-negative integer n: an index in [0, n), or 0 when n is 0. */
  function FloorScaled(u: Unit, n: nat): (r: nat)
    ensures n == 0 ==> r == 0
    ensures n > 0 ==> r < n
    ensures r * u.den <= u.num * n < (r + 1) * u.den
  {
    FloorScaledBelow(u, n);
    FloorBounds(u.num * n, u.den);
    (u.num * n) / u.den
  }

  /** Euclidean division by a positive d brackets x between q*d and (q+1)*d. */
  lemma FloorBounds(x: nat, d: nat)
    requires d > 0
    ensures (x / d) * d <= x < (x / d + 1) * d
  {
    var q := x / d;
    assert x == q * d + x % d;
    assert (q + 1) * d == q * d + d;
  }

  /** Scaling a fraction below one keeps a positive n strictly above the floor. */
  lemma FloorScaledBelow(u: Unit, n: nat)
    ensures n > 0 ==> (u.num * n) / u.den < n
  {
    if n > 0 {
      var q := (u.num * n) / u.den;
      assert q * u.den <= u.num * n;
      assert u.num * n < u.den * n by {
        MulStrict(u.num, u.den, n);
      }
      if q >= n {
        MulMono(n, q, u.den);
        assert false;
      }
    }
  }

  lemma MulStrict(a: nat, b: nat, n: nat)
    requires a < b && n > 0
    ensures a * n < b * n
  {
  }

  lemma MulMono(a: nat, b: nat, c: nat)
    requires a <= b
    ensures a * c <= b * c
  {
  }

  /** The fraction j/m scales m back to exactly j. */
  lemma FloorScaledExact(j: nat, m: nat)
    requires j < m
    ensures FloorScaled(Fraction(j, m), m) == j
  {
    DivExact(j, m);
  }

  /** Euclidean division undoes an exact multiplication. */
  lemma DivExact(j: nat, m: nat)
    requires m > 0
    ensures (j * m) / m == j
  {
    var q := (j * m) / m;
    var r := (j * m) % m;
    assert j * m == q * m + r;
    assert (j - q) * m == r by {
      assert (j - q) * m == j * m - q * m;
    }
    if q < j {
      MulMono(1, j - q, m);
      assert false;
    }
    if q > j {
      assert false;
    }
  }
}

=== FILE: selection.dfy ===
/**
 * `chooseNextField`: the field to collapse next is drawn from the fields whose
 * entropy equals the lowest entropy above one, where "lowest" is taken in the
 * string order of the default sort (see JsSort), and the draw scales
 * `Math.random()` by the number of candidates minus one.
 */
module CellSelector {
  import opened Wrappers
  import opened Random
  import opened GridState
  import opened JsSort

  /** `entropyMap.flat()`: the rows laid end to end; a value occurs in it exactly when some field holds it. */
  function Flatten(entropy: seq<seq<int>>): (r: seq<int>)
    ensures forall v :: v in r <==>
              exists i, j :: 0 <= i < |entropy| && 0 <= j < |entropy[i]| && entropy[i][j] == v
  {
    if |entropy| == 0 then []
    else
      var rest := Flatten(entropy[1..]);
      FlattenStep(entropy, rest);
      entropy[0] + rest
  }

  /** Prepending the first row to the flattened tail adds exactly that row's values. */
  lemma FlattenStep(entropy: seq<seq<int>>, rest: seq<int>)
    requires |entropy| > 0
    requires forall v :: v in rest <==>
               exists i, j :: 0 <= i < |entropy[1..]| && 0 <= j < |entropy[1..][i]| && entropy[1..][i][j] == v
    ensures forall v :: v in entropy[0] + rest <==>
              exists i, j :: 0 <= i < |entropy| && 0 <= j < |entropy[i]| && entropy[i][j] == v
  {
    forall v
      ensures v in entropy[0] + rest <==>
                exists i, j :: 0 <= i < |entropy| && 0 <= j < |entropy[i]| && entropy[i][j] == v
    {
      if v in entropy[0] {
        var j :| 0 <= j < |entropy[0]| && entropy[0][j] == v;
        assert entropy[0][j] == v;
      } else if v in rest {
        var i, j :| 0 <= i < |entropy[1..]| && 0 <= j < |entropy[1..][i]| && entropy[1..][i][j] == v;
        assert entropy[i + 1][j] == v;
      } else {
        forall i, j | 0 <= i < |entropy| && 0 <= j < |entropy[i]|
          ensures entropy[i][j] != v
        {
          if i == 0 {
            assert entropy[0][j] in entropy[0];
          } else {
            assert entropy[i] == entropy[1..][i - 1];
          }
        }
      }
    }
  }

  /** Row-major order, the order of the source's nested loops. */
  predicate PosBefore(p: Pos, q: Pos)
  {
    p.row < q.row || (p.row == q.row && p.col < q.col)
  }

  /** Fields of row i, from column j rightwards, whose entropy is v. */
  function RowFields(row: seq<int>, i: int, j: nat, v: int): (r: seq<Pos>)
    requires j <= |row|
    ensures forall q :: q in r <==> q.row == i && j <= q.col < |row| && row[q.col] == v
    ensures forall a, b :: 0 <= a < b < |r| ==> PosBefore(r[a], r[b])
    decreases |row| - j
  {
    if j == |row| then []
    else
      var rest := RowFields(row, i, j + 1, v);
      if row[j] == v then
        assert forall b :: 0 <= b < |rest| ==> rest[b] in rest;
        [Pos(i, j)] + rest
      else rest
  }

  /** `fieldsWithLowestEntropy`: fields from row i down whose entropy is v, in loop order. */
  function Fields(entropy: seq<seq<int>>, i: nat, v: int): (r: seq<Pos>)
    requires i <= |entropy|
    ensures forall q :: q in r <==>
              i <= q.row < |entropy| && 0 <= q.col < |entropy[q.row]| && entropy[q.row][q.col] == v
    ensures forall a, b :: 0 <= a < b < |r| ==> PosBefore(r[a], r[b])
    decreases |entropy| - i
  {
    if i == |entropy| then []
    else
      var first := RowFields(entropy[i], i, 0, v);
      var rest := Fields(entropy, i + 1, v);
      assert forall a :: 0 <= a < |first| ==> first[a] in first;
      assert forall b :: 0 <= b < |rest| ==> rest[b] in rest;
      first + rest
  }

  /**
   * `fieldsWithLowestEntropy`: the fields whose entropy equals the selected
   * lowest value, in loop order, or none when no entropy is above one (no entry
   * is `=== undefined`).
   */
  function Candidates(entropy: seq<seq<int>>): (r: seq<Pos>)
    ensures |r| > 0 <==> exists i, j :: 0 <= i < |entropy| && 0 <= j < |entropy[i]| && entropy[i][j] > 1
    ensures |r| > 0 ==> LowestAboveOne(Flatten(entropy)).Some?
    ensures forall q :: q in r <==>
              && 0 <= q.row < |entropy| && 0 <= q.col < |entropy[q.row]|
              && LowestAboveOne(Flatten(entropy)) == Some(entropy[q.row][q.col])
    ensures forall a, b :: 0 <= a < b < |r| ==> PosBefore(r[a], r[b])
  {
    LowestOccurs(entropy);
    match LowestAboveOne(Flatten(entropy))
    case None => []
    case Some(v) => Fields(entropy, 0, v)
  }

  /** A lowest value exists exactly when some field is undecided, and some field holds it. */
  lemma LowestOccurs(entropy: seq<seq<int>>)
    ensures LowestAboveOne(Flatten(entropy)).Some? <==>
              exists i, j :: 0 <= i < |entropy| && 0 <= j < |entropy[i]| && entropy[i][j] > 1
    ensures LowestAboveOne(Flatten(entropy)).Some? ==>
              |Fields(entropy, 0, LowestAboveOne(Flatten(entropy)).value)| > 0
  {
    var flat := Flatten(entropy);
    var low := LowestAboveOne(flat);
    if exists i, j :: 0 <= i < |entropy| && 0 <= j < |entropy[i]| && entropy[i][j] > 1 {
      var i, j :| 0 <= i < |entropy| && 0 <= j < |entropy[i]| && entropy[i][j] > 1;
      assert entropy[i][j] in flat;
      var k :| 0 <= k < |flat| && flat[k] == entropy[i][j];
      assert low.Some?;
    }
    if low.Some? {
      var i', j' :| 0 <= i' < |entropy| && 0 <= j' < |entropy[i']| && entropy[i'][j'] == low.value;
      assert Pos(i', j') in Fields(entropy, 0, low.value);
    }
  }

  /** The candidates are distinct fields. */
  lemma CandidatesDistinct(entropy: seq<seq<int>>, a: nat, b: nat)
    requires a < b < |Candidates(entropy)|
    ensures Candidates(entropy)[a] != Candidates(entropy)[b]
  {
  }

  /**
   * `chooseNextField`: index `Math.floor(Math.random() * (n - 1))` into the n
   * candidates; `None` stands for the `undefined` returned when there are none.
   */
  function ChooseNextField(entropy: seq<seq<int>>, tie: Unit): (r: Option<Pos>)
    ensures r.Some? <==> exists i, j :: 0 <= i < |entropy| && 0 <= j < |entropy[i]| && entropy[i][j] > 1
    ensures r.Some? ==> 0 <= r.value.row < |entropy| && 0 <= r.value.col < |entropy[r.value.row]|
    ensures r.Some? ==> entropy[r.value.row][r.value.col] > 1
    ensures r.Some? ==> LowestAboveOne(Flatten(entropy)) == Some(entropy[r.value.row][r.value.col])
    ensures r.Some? ==>
              forall i, j :: 0 <= i < |entropy| && 0 <= j < |entropy[i]| && entropy[i][j] > 1
                ==> StrLe(JsString(entropy[r.value.row][r.value.col]), JsString(entropy[i][j]))
  {
    var fields := Candidates(entropy);
    if |fields| == 0 then None
    else
      var q := fields[FloorScaled(tie, |fields| - 1)];
      assert q in fields;
      FlattenAll(entropy);
      Some(q)
  }

  /** Every field's value occurs in the flattened map. */
  lemma FlattenAll(entropy: seq<seq<int>>)
    ensures forall i, j :: 0 <= i < |entropy| && 0 <= j < |entropy[i]| ==> entropy[i][j] in Flatten(entropy)
  {
  }

  /** With two or more tied candidates the last one is never selected, whatever the draw. */
  lemma LastTiedFieldNeverChosen(entropy: seq<seq<int>>, tie: Unit)
    requires |Candidates(entropy)| >= 2
    ensures ChooseNextField(entropy, tie) != Some(Candidates(entropy)[|Candidates(entropy)| - 1])
  {
    var c := Candidates(entropy);
    var idx := FloorScaled(tie, |c| - 1);
    CandidatesDistinct(entropy, idx, |c| - 1);
  }

  /** Every other tied candidate is selected by some draw. */
  lemma OtherTiedFieldsReachable(entropy: seq<seq<int>>, j: nat)
    requires |Candidates(entropy)| >= 2 && j < |Candidates(entropy)| - 1
    ensures ChooseNextField(entropy, Fraction(j, |Candidates(entropy)| - 1)) == Some(Candidates(entropy)[j])
  {
    var c := Candidates(entropy);
    var u: Unit := Fraction(j, |c| - 1);
    FloorScaledExact(j, |c| - 1);
    assert FloorScaled(u, |c| - 1) == j;
  }

  /** A single candidate is selected whatever the draw. */
  lemma SoleCandidateChosen(entropy: seq<seq<int>>, tie: Unit)
    requires |Candidates(entropy)| == 1
    ensures ChooseNextField(entropy, tie) == Some(Candidates(entropy)[0])
  {
  }
}

=== FILE: wrappers.dfy ===
/** `Option` and `Result`, shared by the modules. */
module Wrappers {

  /** A value that may be absent; `None` plays the part of JavaScript's `undefined`. */
  datatype Option<+T> = None | Some(value: T)

  /** Either a value or the error a call throws. */
  datatype Result<+T, +E> = Success(value: T) | Failure(error: E)
}
